=== FILE: README.md ===
# fsm-bench in Dafny

fsm-bench compares three ways of driving the same randomly generated finite
state machines:

- **Function table.** One procedure `fsm_pos{n}` per state, reached through a
  stored function pointer that the procedure overwrites with `FTABLE[sel]`.
- **Hybrid.** The same procedures behind a `Box<dyn Fsm>`.
- **Enum.** A `State(u8, [u64; SIZE])` value matched by one inline `match`.

The build script (`build.rs`) draws, from a seeded RNG, one transition rule for
each of the 255 live states of each state-vector size 4, 8, 16 and 32. A rule
updates every slot by a wrapping add, sub, mul or div with `val + data`, or
leaves it alone. The next state is the wrapping sum of the slots modulo 256.
Id 255 is the absorbing trap. The benchmark (`src/main.rs`) builds populations
of 256 machines and drives them with random inputs, for each representation
in turn.

This project models that core as pure functions over immutable datatypes:

- `wrapping.dfy`: u64 wrapping arithmetic. `wrapping_div` by zero and an
  out-of-range `Vec` index are `Outcome.Panic` values.
- `rules.dfy`: slot ops, the selector, and a reference step `RefStep` on
  configurations `(id, vector)`.
- `generator.dfy`: the RNG as an abstract stream of already-ranged draws
  (`Stream = nat -> u64` plus a position; reseeding restarts at position 0).
  The slot draws are shared by both generators, and `Universe` gives the
  closed-form rule table of a size.
- `func_fsm.dfy`, `func2_fsm.dfy` and `enum_fsm.dfy`: what each generator
  produces (procedures plus `FTABLE`, the hybrid wrapper, and the match arms),
  with each representation's `init` and `drive`.
- `build.dfy`: the build script's two loops over `SIZES`.
- `harness.dfy`: `single_run!`, `bench_run!` and `main`.

The main results are:

- Each representation's `drive` is the reference step of its module's rule
  table.
- Both generators produce exactly the reference universe of the draws at the
  same stream positions. So all three representations run the same rules for
  every (size, state).
- Given the same streams, the three benchmarks build the same populations and
  workloads and reach the same configurations, repetition by repetition.

## Model

| member | source | states |
|---|---|---|
| Wrapping.WrappingAdd | build.rs:14 | `wrapping_add` is the exact sum below 2^64 and the sum minus 2^64 above it |
| Wrapping.WrappingSub | build.rs:15 | `wrapping_sub` is the difference when it is non-negative and the difference plus 2^64 otherwise |
| Wrapping.WrappingMul | build.rs:16 | `wrapping_mul` is the exact product when that fits in 64 bits, and 0 when a factor is 0 |
| Wrapping.WrappingDiv | build.rs:17 | `wrapping_div` panics with a division by zero exactly when the divisor is 0; otherwise it is the floor quotient |
| Wrapping.AsU8 | build.rs:111 | the `as u8` cast leaves values below 256 unchanged |
| Wrapping.WrappingSumIsSumMod | build.rs:21 | the release-mode `iter().sum::<u64>()` equals the true sum modulo 2^64 |
| Wrapping.Mod256OfModModulus | build.rs:21 | reducing modulo 2^64 before reducing modulo 256 changes nothing, because 256 divides 2^64 |
| Rules.DecodeOp | build.rs:13-19 | op codes 0, 1, 2 and 3 decode to add, sub, mul and div with the drawn constant, in both directions; every other code is the no-op arm |
| Rules.ApplyOp | build.rs:14-18 | add, sub and mul give `(x + val + data)`, `(x - val - data)` and `x * ((val + data) mod 2^64)`, each modulo 2^64; div gives the floor quotient by `(val + data) mod 2^64` and panics exactly when that operand wraps to 0; the no-op keeps the slot |
| Rules.ApplyOps | build.rs:11-20 | a rule succeeds exactly when every slot's op succeeds; slot `i` is then op `i` applied to `state[i]`; the only panic is division by zero |
| Rules.Selector | build.rs:21 | the next id is always below 256, so the `FTABLE` index is in bounds |
| Rules.SelectorIsSumMod256 | build.rs:21 | the selector equals the unbounded sum modulo 256, and the enum's `as u8` cast keeps it |
| Rules.DivPanicsIff | build.rs:17 | for a constant of at least 1, a divide slot panics exactly on input `2^64 - val` |
| Rules.RefStep | build.rs:11-22 | the trap leaves the configuration unchanged; a live rule completes exactly when every slot op does, and then slot `i` of the new vector is op `i` applied to slot `i` with the input, and the next id is the new sum modulo 256; the only panic is a division by zero |
| Rules.RefRun | src/main.rs:57 | driving with a sequence of inputs keeps a valid configuration of the same size; what each input does is stated by `RefRunOne` and `RefRunSplit` |
| Rules.RefRunOne | src/main.rs:57 | driving with one input is one reference step |
| Rules.RefRunSplit | src/main.rs:56-58 | driving with `xs + ys` is driving with `xs` and then with `ys` from where it stopped; a panic during `xs` is the panic of the whole run |
| Rules.TrapAbsorbs | build.rs:54 | a machine in the trap keeps its id and vector under every input sequence |
| Generator.DrawSlots | build.rs:11-20 | a rule has `size` slot ops in index order and consumes exactly `2 * size` draws; slot `i` decodes draw `2i` as its constant and draw `2i + 1` as its op code |
| Generator.Universe | build.rs:45-54 | the reference rule table has a live rule of `size` ops for each id below 255 and the trap at 255 |
| Generator.DrawVector | build.rs:38 | `init` fills slot `i` with the `i`-th draw and consumes `size` draws |
| Generator.GeneratedConstantsInRange | build.rs:12-13 | when constants come from `[1, 2^64 - 2]` and codes from `[0, 4]`, every generated constant is in that range and a generated divide panics exactly on input `2^64 - val` |
| FuncFsm.FTableLayout | build.rs:45-50 | `FTABLE` has 256 entries; entry `k` is `fsm_pos{k}` for `k < 255` and entry 255 is `fsm_pos_trap` |
| FuncFsm.GenFuncTransitions | build.rs:51-53 | the transition loop writes one procedure per remaining live state and consumes one state's draws per procedure |
| FuncFsm.TransitionDraws | build.rs:51-53 | the procedure of state `n` draws its slots from the `n`-th state's stream position |
| FuncFsm.TransitionsAreUniverse | build.rs:51-53 | the transitions dispatch through `FTABLE` to exactly the reference universe of their draws |
| FuncFsm.RulesOfShape | build.rs:45-54 | a module whose procedures fit its size dispatches to a well-formed rule table of that size |
| FuncFsm.GenFuncFsm | build.rs:26-57 | `gen_func_fsm` writes 255 procedures and consumes exactly `255 * 2 * size` draws; the table and the trap procedure draw nothing |
| FuncFsm.GenFuncFsmRules | build.rs:26-57 | the generated module fits its size and runs the reference universe of its draws |
| FuncFsm.Init | build.rs:36-42 | `init` starts at `fsm_pos0` (id 0) with slot `i` set to the `i`-th draw, consuming `size` draws |
| FuncFsm.Call | build.rs:11-22 | a live procedure completes exactly when every slot op does, then leaves slot `i` as its op `i` applied to it with the input and stores the procedure of the selected id in `f`; the trap procedure touches neither the cell nor the vector |
| FuncFsm.Drive | src/main.rs:24-31 | `FsmState::drive` is the reference step of the module's rules; it keeps the state valid and leaves a trapped machine unchanged |
| Func2Fsm.GenFunc2Fsm | build.rs:59-93 | the hybrid generator draws nothing and starts at the imported `fsm_pos0`, which is `FTABLE[0]` |
| Func2Fsm.Init | build.rs:84-89 | the hybrid `init` starts at id 0 with slot `i` set to the `i`-th draw, consuming `size` draws |
| Func2Fsm.Drive | build.rs:77-81 | the hybrid `drive` is the reference step of the function-table module's rules and leaves a trapped machine unchanged |
| EnumFsm.GenEnumBranch | build.rs:95-113 | the trap id writes the wildcard and draws nothing; a live id writes its own arm and draws one state's slots |
| EnumFsm.GenLiveArms | build.rs:138-140 | the loop iterations from a live id through 254 write one arm per id and consume one state's draws per id |
| EnumFsm.GenEnumArms | build.rs:138-140 | the `0..=255` arm loop writes 256 arms, ends with the wildcard `_ => ()` for id 255, and consumes one state's draws per live id |
| EnumFsm.ArmDraws | build.rs:138-140 | the `k`-th live arm written from a position is a live arm whose slots are drawn from the `k`-th state's position |
| EnumFsm.ArmIds | build.rs:100 | the `k`-th live arm written from the loop's first id `first` is `State(n @ n, s)` with `n == first + k` |
| EnumFsm.MatchArm | build.rs:133-141 | when the `match` runs a live rule, that rule is the ops of an arm for the discriminant |
| EnumFsm.MatchGenerated | build.rs:133-141 | on the generated arms, discriminant `n < 255` reaches arm `n` and 255 reaches the wildcard |
| EnumFsm.ArmsLayout | build.rs:138-140 | the arm loop writes exactly arm `i` for the `i`-th state's draws, then the wildcard |
| EnumFsm.DrawnArmsAreUniverse | build.rs:133-141 | arms laid out like that fit their size and dispatch to exactly the reference universe |
| EnumFsm.ArmsAreUniverse | build.rs:138-140 | the arms drawn from a position dispatch to the reference universe of the draws from there |
| EnumFsm.GenEnumFsm | build.rs:115-144 | `gen_enum_fsm` writes 256 arms and consumes exactly `255 * 2 * size` draws |
| EnumFsm.GenEnumFsmRules | build.rs:115-144 | the generated arms fit their size and the `match` runs the reference universe of their draws |
| EnumFsm.GenEnumFsmShape | build.rs:138-140 | the generated arms are live arms 0..254 in order, then the wildcard |
| EnumFsm.Init | build.rs:124-128 | the enum `init` is `State(0, s)` with slot `i` set to the `i`-th draw, consuming `size` draws |
| EnumFsm.Drive | build.rs:133-141 | the enum `drive` is the reference step of the module's rules |
| EnumFsm.TrapAbsorbs | build.rs:96-98 | on a generated module, discriminant 255 keeps its discriminant and vector for every input |
| Build.GenAll | build.rs:148-151 | a loop over the sizes produces one module per size |
| Build.GenAllDraws | build.rs:148-151 | when each generator call consumes one universe, the loop consumes the universes of all sizes |
| Build.GenAllHolds | build.rs:148-151 | module `j` of the loop has every property the generator guarantees, at size `SIZES[j]` and the position where the earlier universes stopped |
| Build.HybridModules | build.rs:148-151 | one hybrid module per size, each starting at `fsm_pos0` |
| Build.BuildAll | build.rs:146-158 | the build writes one function-table, one hybrid and one enum module per size |
| Build.FuncGenRuns | build.rs:149 | each `gen_func_fsm` call consumes one universe and runs the reference universe of its draws |
| Build.EnumGenRuns | build.rs:155 | each `gen_enum_fsm` call consumes one universe and runs the reference universe of its draws |
| Build.FuncLoopAt | build.rs:147-151 | the `k`-th function-table module runs the universe of `SIZES[k]` drawn where the earlier universes stopped |
| Build.EnumLoopAt | build.rs:153-156 | the `k`-th enum module runs the universe of `SIZES[k]` drawn where the earlier universes stopped |
| Build.AllUniverseDraws | build.rs:5-6 | the four universes take `255 * 2 * (4 + 8 + 16 + 32) = 30600` draws |
| Build.UniverseStarts | build.rs:148-151 | the universes of sizes 4, 8, 16 and 32 start at draws 0, 2040, 6120 and 14280 |
| Build.GeneratorsDraw | build.rs:148-156 | every call of either generator consumes one universe of its size |
| Build.LoopsDraw | build.rs:148-156 | each loop consumes exactly the universes of its sizes |
| Build.BuildDraws | build.rs:146-156 | each of the two loops consumes exactly the draws of all four universes |
| Build.BuildAgrees | build.rs:146-156 | for every size, the function-table and enum modules run the same reference universe from the same stream positions, and the hybrid reuses the function-table procedures, so all three representations run the same rules |
| Harness.InstanceRulesAgree | src/main.rs:57 | when the built tables agree, every instance runs the well-formed table of its size, whatever its representation |
| Harness.InitInstance | src/main.rs:46-49 | `init` of the chosen size yields a valid instance of the chosen representation, at id 0, with slot `i` set to the `i`-th draw, consuming `SIZE` draws |
| Harness.SizeChoice | src/main.rs:45-50 | choices 0, 1 and 2 pick sizes 4, 8 and 16, and every other choice picks 32 |
| Harness.Populate | src/main.rs:44-51 | the population has `count` instances, all valid, of the benchmarked representation and at id 0; it consumes one draw per instance plus its slots |
| Harness.RefLayoutSplit | src/main.rs:44-51 | the reference draws of `m + n` instances are those of `m` instances followed by those of `n` more from where the first `m` stop |
| Harness.RefLayoutAt | src/main.rs:44-51 | in the reference, instance `i` draws its `gen_range(0, 4)` choice where the first `i` instances' draws stop and its vector right after that choice |
| Harness.PopulateRefines | src/main.rs:44-51 | in every representation the loop picks the size indices the reference draws and stops where the reference stops |
| Harness.PopulateViews | src/main.rs:44-51 | in every representation instance `i` starts in id 0 with the `SIZES[k]` draws from the start the reference gives it |
| Harness.PopulateAt | src/main.rs:44-51 | instance `i` takes the size its `gen_range(0, 4)` draw maps to, at the position where the loop's first `i` iterations stop; it starts in id 0 and its vector holds the draws right after that choice, slot `j` taking the draw `j + 1` past it |
| Harness.PopulateAgree | src/main.rs:44-51 | every representation draws the same sizes and configurations from a position and stops at the same position |
| Harness.Zip | src/main.rs:56 | `zip` pairs the `k`-th index with the `k`-th input and stops at the shorter sequence |
| Harness.DriveInstance | src/main.rs:57 | `states[idx].drive(d)` is the reference step of the instance's table; it keeps representation and size, and can panic only by dividing by zero |
| Harness.InputsFor | src/main.rs:56-58 | the inputs a workload feeds an instance are at most the workload's, and none when no job indexes it |
| Harness.DriveAll | src/main.rs:56-58 | a completed drive loop keeps the population size; what it does to each instance is stated by `DriveAllRuns` |
| Harness.DriveAllKeeps | src/main.rs:56-58 | a completed drive loop keeps every instance valid, of its representation and of its size |
| Harness.DriveAllInBounds | src/main.rs:57 | when every index lies inside the population, only a division by zero can abort the loop |
| Harness.DriveAllRuns | src/main.rs:56-58 | a completed loop leaves instance `i` exactly where driving it alone with the data of the jobs indexing it, in workload order, leaves it; with every index inside the population, the loop completes exactly when every such per-instance run does |
| Harness.DriveAllUntouched | src/main.rs:56-58 | a completed loop leaves an instance that no job indexes unchanged |
| Harness.RefDriveAll | src/main.rs:56-58 | the reference drive loop over configurations keeps them valid for their sizes; what it does to each configuration is stated by `RefDriveAllRuns` |
| Harness.RefDriveAllRuns | src/main.rs:56-58 | a completed reference loop leaves configuration `i` where the reference run of its size's table over the data of the jobs indexing it leaves it; with every index inside, the loop completes exactly when every such run does |
| Harness.DriveAllRefines | src/main.rs:56-58 | driving a population is the reference drive loop on its configurations, for every representation |
| Harness.DriveAllAgree | src/main.rs:56-58 | populations with the same sizes and configurations end a workload alike, or panic alike |
| Harness.RunInstance | src/main.rs:57 | driving one instance with a sequence of inputs keeps its validity, representation and size; `RunInstanceRefines` ties it to `RefRun`, whose step-by-step meaning `RefRunOne` and `RefRunSplit` state |
| Harness.RunInstanceRefines | src/main.rs:57 | after every input, each representation is in the configuration the reference run of its size gives |
| Harness.RunInstanceAgree | build.rs:14-22 | function-table, hybrid and enum instances that start in the same configuration stay in the same configuration under the same inputs, and panic on the same input |
| Harness.Workload | src/main.rs:52-56 | the workload has one job per run, and job `i` pairs index draw `i` with data draw `i` |
| Harness.SingleRun | src/main.rs:38-61 | a repetition has `count` instances and `runs` jobs, and consumes its data, population and index draws and nothing else |
| Harness.RunWorkload | src/main.rs:52-58 | once the population is drawn, the index draws follow it and are paired with the data draws |
| Harness.SingleRunPopulation | src/main.rs:44-51 | a repetition's population is fresh: valid, of its representation and at id 0 |
| Harness.SingleRunPairs | src/main.rs:52-58 | the `i`-th drive pairs the `i`-th index draw after the population with the `i`-th data draw |
| Harness.SingleRunInBounds | src/main.rs:52-57 | a completed repetition keeps its population; with in-range index draws only a division by zero can abort it |
| Harness.SingleRunRefines | src/main.rs:56-58 | a repetition drives its initial configurations by the reference rules |
| Harness.SingleRunAgree | src/main.rs:38-61 | from the same position, every representation builds the same population and workload, reaches the same outcome, and stops at the same position |
| Harness.Repeat | src/main.rs:66-71 | a repetition loop that completes collects one result per iteration |
| Harness.RepeatHolds | src/main.rs:69-71 | every collected result has every property each step guarantees |
| Harness.RepeatSplit | src/main.rs:65-71 | a loop of `m + n` iterations is a loop of `m` followed by a loop of `n` from where it stopped, with the first panic of either aborting |
| Harness.RepeatAgree | src/main.rs:66-71 | two loops whose steps look alike and consume alike from every position collect alike and stop alike |
| Harness.AttemptsAgree | src/main.rs:67 | every representation's repetition from the same position looks the same and consumes the same draws |
| Harness.BenchRunWith | src/main.rs:68-70 | a completed benchmark records exactly `recorded` repetitions |
| Harness.BenchRunWithWarmups | src/main.rs:64-71 | the benchmark is one loop of `warmups + recorded` repetitions from the reseeded position 0 with the first `warmups` results discarded; it panics exactly when that loop does |
| Harness.BenchRunWithShape | src/main.rs:69-71 | every recorded repetition completed all of its `runs` drives |
| Harness.BenchRunWithAgree | src/main.rs:65-71 | since each benchmark reseeds, all representations record the same repetitions, or panic alike |
| Harness.BenchRun | src/main.rs:63-75 | `bench_run!` records exactly `BENCH_RUNS` repetitions |
| Harness.BenchRunShape | src/main.rs:5-8 | each of the `BENCH_RUNS` recorded repetitions performs `HEAP_RUNS_PER_BENCH` drives |
| Harness.MainWith | src/main.rs:93-97 | `main` runs the three benchmarks in turn, each recording the same number of repetitions |
| Harness.MainWithAgrees | src/main.rs:93-97 | when the rules agree, `main` panics exactly when the first benchmark does; otherwise the three benchmarks record identical repetitions |
| Harness.MainRun | src/main.rs:93-97 | `main` on the generated modules records `BENCH_RUNS` repetitions per representation |
| Harness.MainAgrees | src/main.rs:93-97 | for any streams the two seeds yield, the generated modules' rules agree and `main` records identical repetitions for all three representations |

## Left out

- Rust text emission, `OUT_DIR` file creation, `BufWriter` and `io::Result`,
  and the `cargo:rerun-if-changed` directive are I/O. The model produces the
  generated modules as abstract rules.
- `StdRng`'s ChaCha internals and `gen_range`'s sampling algorithm are a
  foreign library. The stream is a parameter. The draw ranges it promises are
  hypotheses, not derived facts: constants in `[1, 2^64 - 2]` and codes in
  `[0, 4]` (`Generator.RuleDrawsRanged`), and indices below `FSM_COUNT`.
- The two seeds (`RNG_SEED = 123456` and `SEED = 42`) appear only as the
  choice of stream. The build stream and the benchmark stream are separate
  parameters of `Harness.MainRun`.
- `unsafe` mechanics (`transmute`, `Box::leak`, raw pointers,
  `get_unchecked`) and `Box<dyn Fsm>` only affect performance. An instance is
  its stored procedure (or discriminant) plus its vector.
- `Instant`/`Duration` timing, `calc_mean_std` (f32 mean and square root) and
  the `println!` of the result involve the clock and floating point. A
  repetition's observable result is its population before and after the
  workload.
- Checked-overflow panics of `iter().sum()` in debug builds are not modelled.
  The model uses the release-mode wrapping sum.
- Division by a divisor that wraps to 0: the code calls `wrapping_div`,
  which panics on a zero divisor, so the drive aborts with
  `Panic(DivideByZero)`, identically in all three representations.
- Wrapping.WrappingMul: the contract states only the product that fits in 64
  bits and the zero factors. The wrapped case is the product modulo 2^64 in
  the body.
- Harness.SingleRunInBounds: the claim that `states[idx]` never goes out of
  bounds assumes that the index draws lie below `count`. That is
  `gen_range(0, FSM_COUNT)`'s promise and is not derived.
- Generator.GeneratedConstantsInRange: the constant and op-code ranges are the
  RNG's promise (`RuleDrawsRanged`), taken as a hypothesis.
- Build.BuildAgrees: agreement is stated as both modules of a size running the
  same reference universe (`FuncRuns`, `EnumRuns`). It does not say that the
  modules equal freshly generated values.


=== FILE: build.dfy ===
/** The build script's `main`: one stream seeded with `RNG_SEED` generates
    the function-table modules (and the draw-free hybrid modules) for every
    size; a second stream seeded with the same seed generates the enum
    modules. */
module Build {
  import opened Wrapping
  import opened Rules
  import opened Generator
  import FuncFsm
  import Func2Fsm
  import EnumFsm

  /** Every module the build script writes, indexed like `SIZES`. */
  datatype Built = Built(func: seq<FuncFsm.FuncModule>, hybrid: seq<Func2Fsm.Func2Module>, enums: seq<EnumFsm.EnumModule>)

  /** Draws consumed by the universes of `sizes`, generated one after the
      other. */
  function SizesDraws(sizes: seq<nat>): nat
  {
    if |sizes| == 0 then 0 else UniverseDraws(sizes[0]) + SizesDraws(sizes[1..])
  }

  /** Stream position where the universe of `sizes[j]` starts when the
      universes of `sizes` are generated in order from `pos`. */
  function Start(pos: nat, sizes: seq<nat>, j: nat): nat
    requires j <= |sizes|
  {
    pos + SizesDraws(sizes[..j])
  }

  /** A loop `for size in sizes { gen(size, rng) }` of `main`: every module is
      drawn from where the previous one stopped. */
  function GenAll<M>(gen: (nat, nat) -> Drawn<M>, sizes: seq<nat>, pos: nat): (r: Drawn<seq<M>>)
    ensures |r.value| == |sizes|
  {
    if |sizes| == 0 then Drawn([], pos)
    else
      var m := gen(sizes[0], pos);
      var rest := GenAll(gen, sizes[1..], m.next);
      Drawn([m.value] + rest.value, rest.next)
  }

  /** When every call of `gen` consumes one universe of its size, the loop
      consumes the universes of all sizes. */
  lemma {:induction false} GenAllDraws<M>(gen: (nat, nat) -> Drawn<M>, sizes: seq<nat>, pos: nat)
    requires forall size: nat, p: nat :: gen(size, p).next == p + UniverseDraws(size)
    ensures GenAll(gen, sizes, pos).next == Start(pos, sizes, |sizes|)
    decreases |sizes|
  {
    assert sizes[..|sizes|] == sizes;
    if |sizes| > 0 {
      GenAllDraws(gen, sizes[1..], gen(sizes[0], pos).next);
      assert sizes[1..][..|sizes[1..]|] == sizes[1..];
    }
  }

  /** Whatever `P` every call of `gen` guarantees of the module it returns,
      given the size and start position, holds of module `j` of the loop with
      the size `sizes[j]` and the position where the universes before it
      stopped. */
  lemma {:induction false} GenAllHolds<M>(gen: (nat, nat) -> Drawn<M>, P: (nat, nat, M) -> bool, sizes: seq<nat>, pos: nat, j: nat)
    requires forall size: nat, p: nat :: gen(size, p).next == p + UniverseDraws(size) && P(size, p, gen(size, p).value)
    requires j < |sizes|
    ensures P(sizes[j], Start(pos, sizes, j), GenAll(gen, sizes, pos).value[j])
    decreases j
  {
    var m := gen(sizes[0], pos);
    var rest := GenAll(gen, sizes[1..], m.next);
    assert GenAll(gen, sizes, pos).value == [m.value] + rest.value;
    if j > 0 {
      GenAllHolds(gen, P, sizes[1..], m.next, j - 1);
      assert sizes[..j][1..] == sizes[1..][..j - 1];
    } else {
      assert sizes[..0] == [];
    }
  }

  /** The first loop's generator: `gen_func_fsm` on the seeded stream. */
  function FuncGen(s: Stream): (nat, nat) -> Drawn<FuncFsm.FuncModule>
  {
    (size: nat, p: nat) => FuncFsm.GenFuncFsm(size, s, p)
  }

  /** The second loop's generator: `gen_enum_fsm` on the reseeded stream. */
  function EnumGen(s: Stream): (nat, nat) -> Drawn<EnumFsm.EnumModule>
  {
    (size: nat, p: nat) => EnumFsm.GenEnumFsm(size, s, p)
  }

  /** The modules of the first loop, which draws the function-table
      universes from the freshly seeded stream. */
  function FuncModules(s: Stream): seq<FuncFsm.FuncModule>
  {
    GenAll(FuncGen(s), SIZES, 0).value
  }

  /** The hybrid modules `gen_func2_fsm` writes beside them; it takes no
      stream. */
  function HybridModules(): (hs: seq<Func2Fsm.Func2Module>)
    ensures |hs| == |SIZES|
    ensures forall k :: 0 <= k < |SIZES| ==> hs[k] == Func2Fsm.Func2Module(SIZES[k], FuncFsm.Pos(0))
  {
    seq(|SIZES|, k requires 0 <= k < |SIZES| => Func2Fsm.GenFunc2Fsm(SIZES[k]))
  }

  /** The modules of the second loop, which reseeds (restarts at position 0)
      and draws the enum universes. */
  function EnumModules(s: Stream): seq<EnumFsm.EnumModule>
  {
    GenAll(EnumGen(s), SIZES, 0).value
  }

  /** `main`, given the stream `StdRng::seed_from_u64(RNG_SEED)` yields. */
  function BuildAll(s: Stream): (b: Built)
    ensures |b.func| == |SIZES| && |b.hybrid| == |SIZES| && |b.enums| == |SIZES|
  {
    Built(FuncModules(s), HybridModules(), EnumModules(s))
  }

  /** A function-table module that has size `size`, fits it, and runs the
      reference universe of that size drawn from `pos`. */
  ghost predicate FuncRuns(s: Stream, size: nat, pos: nat, fm: FuncFsm.FuncModule)
  {
    fm.size == size && FuncFsm.WellFormed(fm) && FuncFsm.RulesOf(fm) == Universe(size, s, pos)
  }

  /** An enum module likewise. */
  ghost predicate EnumRuns(s: Stream, size: nat, pos: nat, em: EnumFsm.EnumModule)
  {
    em.size == size && EnumFsm.WellFormed(em) && EnumFsm.RulesOf(em) == Universe(size, s, pos)
  }

  /** Every call of the first loop's generator consumes one universe and
      yields a module that runs it. */
  lemma FuncGenRuns(s: Stream)
    ensures forall size: nat, p: nat :: FuncGen(s)(size, p).next == p + UniverseDraws(size) && FuncRuns(s, size, p, FuncGen(s)(size, p).value)
  {
    forall size: nat, p: nat
      ensures FuncGen(s)(size, p).next == p + UniverseDraws(size) && FuncRuns(s, size, p, FuncGen(s)(size, p).value)
    {
      var d := FuncFsm.GenFuncFsm(size, s, p);
      assert FuncGen(s)(size, p) == d;
      FuncFsm.GenFuncFsmRules(size, s, p);
    }
  }

  /** Every call of the second loop's generator likewise. */
  lemma EnumGenRuns(s: Stream)
    ensures forall size: nat, p: nat :: EnumGen(s)(size, p).next == p + UniverseDraws(size) && EnumRuns(s, size, p, EnumGen(s)(size, p).value)
  {
    forall size: nat, p: nat
      ensures EnumGen(s)(size, p).next == p + UniverseDraws(size) && EnumRuns(s, size, p, EnumGen(s)(size, p).value)
    {
      var d := EnumFsm.GenEnumFsm(size, s, p);
      assert EnumGen(s)(size, p) == d;
      EnumFsm.GenEnumFsmRules(size, s, p);
    }
  }

  /** Module `k` of a function-table loop over `sizes` from `pos` runs the
      universe of `sizes[k]` drawn where the previous universes stopped. */
  lemma FuncLoopAt(s: Stream, sizes: seq<nat>, pos: nat, k: nat)
    requires k < |sizes|
    ensures FuncRuns(s, sizes[k], Start(pos, sizes, k), GenAll(FuncGen(s), sizes, pos).value[k])
  {
    FuncGenRuns(s);
    GenAllHolds(FuncGen(s), (size: nat, p: nat, fm: FuncFsm.FuncModule) => FuncRuns(s, size, p, fm), sizes, pos, k);
  }

  /** Module `k` of an enum loop likewise. */
  lemma EnumLoopAt(s: Stream, sizes: seq<nat>, pos: nat, k: nat)
    requires k < |sizes|
    ensures EnumRuns(s, sizes[k], Start(pos, sizes, k), GenAll(EnumGen(s), sizes, pos).value[k])
  {
    EnumGenRuns(s);
    GenAllHolds(EnumGen(s), (size: nat, p: nat, em: EnumFsm.EnumModule) => EnumRuns(s, size, p, em), sizes, pos, k);
  }

  /** Every module has its size, its procedures or arms fit that size, and
      the hybrid module of a size starts at `fsm_pos0`. */
  ghost predicate WellFormedBuilt(b: Built)
  {
    && |b.func| == |SIZES| && |b.hybrid| == |SIZES| && |b.enums| == |SIZES|
    && forall k :: 0 <= k < |SIZES| ==>
      && FuncFsm.WellFormed(b.func[k]) && b.func[k].size == SIZES[k]
      && b.hybrid[k] == Func2Fsm.Func2Module(SIZES[k], FuncFsm.Pos(0))
      && EnumFsm.WellFormed(b.enums[k]) && b.enums[k].size == SIZES[k]
  }

  /** The function-table procedures and the enum arms of every size run the
      same rules. */
  ghost predicate RulesAgree(b: Built)
    requires WellFormedBuilt(b)
  {
    forall k :: 0 <= k < |SIZES| ==> FuncFsm.RulesOf(b.func[k]) == EnumFsm.RulesOf(b.enums[k])
  }

  /** All four universes take 255 * 2 * (4 + 8 + 16 + 32) = 30600 draws. */
  lemma AllUniverseDraws()
    ensures Start(0, SIZES, |SIZES|) == 30600
  {
    var d := [4, 8, 16, 32];
    assert SIZES[..4] == d;
    assert d[1..] == [8, 16, 32] && [8, 16, 32][1..] == [16, 32] && [16, 32][1..] == [32] && [32][1..] == [];
  }

  /** The universes of sizes 8, 16 and 32 start at 2040, 6120 and 14280. */
  lemma UniverseStarts(k: nat)
    requires k < |SIZES|
    ensures Start(0, SIZES, k) == [0, 2040, 6120, 14280][k]
  {
    var d := [4, 8, 16, 32];
    assert SIZES == d;
    assert d[1..] == [8, 16, 32] && [8, 16, 32][1..] == [16, 32] && [16, 32][1..] == [32] && [32][1..] == [];
    assert d[..0] == [] && d[..1] == [4] && d[..2] == [4, 8] && d[..3] == [4, 8, 16];
    assert [4][1..] == [] && [4, 8][1..] == [8] && [4, 8, 16][1..] == [8, 16] && [8, 16][1..] == [16] && [8][1..] == [];
  }

  /** Each call of either generator consumes one universe of its size. */
  lemma GeneratorsDraw(s: Stream)
    ensures forall size: nat, p: nat :: FuncGen(s)(size, p).next == p + UniverseDraws(size)
    ensures forall size: nat, p: nat :: EnumGen(s)(size, p).next == p + UniverseDraws(size)
  {
  }

  /** Each loop of `main` consumes exactly the draws of all four universes
      (30600, by `AllUniverseDraws`). */
  lemma BuildDraws(s: Stream)
    ensures GenAll(FuncGen(s), SIZES, 0).next == Start(0, SIZES, |SIZES|)
    ensures GenAll(EnumGen(s), SIZES, 0).next == Start(0, SIZES, |SIZES|)
  {
    LoopsDraw(s, SIZES, 0);
  }

  /** Both loops over `sizes` from `pos` consume the universes of `sizes`. */
  lemma LoopsDraw(s: Stream, sizes: seq<nat>, pos: nat)
    ensures GenAll(FuncGen(s), sizes, pos).next == Start(pos, sizes, |sizes|)
    ensures GenAll(EnumGen(s), sizes, pos).next == Start(pos, sizes, |sizes|)
  {
    GeneratorsDraw(s);
    GenAllDraws(FuncGen(s), sizes, pos);
    GenAllDraws(EnumGen(s), sizes, pos);
  }

  /** The generated function-table, hybrid and enum modules of every size
      compute the same rule table: the reference universe of that size,
      drawn from the same stream positions. So all three representations
      run identical rules for every (size, state). */
  lemma BuildAgrees(s: Stream)
    ensures WellFormedBuilt(BuildAll(s)) && RulesAgree(BuildAll(s))
    ensures forall k :: 0 <= k < |SIZES| ==>
      && FuncRuns(s, SIZES[k], Start(0, SIZES, k), BuildAll(s).func[k])
      && EnumRuns(s, SIZES[k], Start(0, SIZES, k), BuildAll(s).enums[k])
  {
    forall k | 0 <= k < |SIZES|
      ensures FuncRuns(s, SIZES[k], Start(0, SIZES, k), FuncModules(s)[k])
      ensures EnumRuns(s, SIZES[k], Start(0, SIZES, k), EnumModules(s)[k])
    {
      FuncLoopAt(s, SIZES, 0, k);
      EnumLoopAt(s, SIZES, 0, k);
    }
  }
}

=== FILE: enum_fsm.dfy ===
/** The tagged-union representation (`gen_enum_fsm`): `State(u8, [u64; SIZE])`
    driven by one `match` whose arms inline the rules. */
module EnumFsm {
  import opened Outcomes
  import opened Wrapping
  import opened Rules
  import opened Generator

  /** One arm of the generated `match self`: `State(n @ k, s) => { .. }` for
      a live state `k`, or the final `_ => ()`. */
  datatype Arm = Case(k: nat, ops: seq<SlotOp>) | Wildcard

  /** A generated `enum_fsm_{size}.rs`: its arms in source order. */
  datatype EnumModule = EnumModule(size: nat, arms: seq<Arm>)

  predicate WellFormed(em: EnumModule)
  {
    forall i :: 0 <= i < |em.arms| && em.arms[i].Case? ==> |em.arms[i].ops| == em.size
  }

  /** `gen_enum_branch`: the trap id writes the wildcard arm and draws
      nothing; a live id draws its slots exactly as `gen_func_transition`. */
  function GenEnumBranch(size: nat, n: nat, s: Stream, pos: nat): (r: Drawn<Arm>)
    requires n <= STATES
    ensures n == STATES ==> r == Drawn(Wildcard, pos)
    ensures n < STATES ==> r.value.Case? && r.value.k == n && r.next == pos + DrawsPerState(size)
  {
    if n == STATES then Drawn(Wildcard, pos)
    else
      var ops := DrawSlots(size, s, pos);
      Drawn(Case(n, ops.value), ops.next)
  }

  /** The iterations `first..STATES` of the arm loop: one live arm per
      remaining live id, in id order. */
  function GenLiveArms(size: nat, first: nat, s: Stream, pos: nat): (r: Drawn<seq<Arm>>)
    requires first <= STATES
    ensures |r.value| == STATES - first
    ensures r.next == StateStart(size, pos, STATES - first)
    decreases STATES - first
  {
    if first == STATES then Drawn([], pos)
    else
      var arm := GenEnumBranch(size, first, s, pos);
      var rest := GenLiveArms(size, first + 1, s, arm.next);
      StateStartShift(size, pos, STATES - first - 1);
      Drawn([arm.value] + rest.value, rest.next)
  }

  /** The loop `for n in 0..=STATES { gen_enum_branch(..) }`: the live arms,
      then the iteration for the trap id, which writes the wildcard and
      draws nothing. */
  function GenEnumArms(size: nat, s: Stream, pos: nat): (r: Drawn<seq<Arm>>)
    ensures |r.value| == IDS && r.value[STATES] == Wildcard
    ensures r.next == StateStart(size, pos, STATES)
  {
    var live := GenLiveArms(size, 0, s, pos);
    var trap := GenEnumBranch(size, STATES, s, live.next);
    Drawn(live.value + [trap.value], trap.next)
  }

  /** For a live id the loop writes that id's arm, then continues one
      state's draws later. */
  lemma LiveArmsUnfold(size: nat, first: nat, s: Stream, pos: nat)
    requires first < STATES
    ensures GenLiveArms(size, first, s, pos).value ==
      [Case(first, DrawSlots(size, s, pos).value)] + GenLiveArms(size, first + 1, s, pos + DrawsPerState(size)).value
  {
  }

  /** The `k`-th live arm generated from `pos` draws its slots from the
      `k`-th state's position `p`. */
  lemma {:induction false} ArmDraws(size: nat, first: nat, s: Stream, pos: nat, k: nat, n: nat, p: nat)
    requires n == first + k && n < STATES && p == StateStart(size, pos, k)
    ensures var arm := GenLiveArms(size, first, s, pos).value[k];
      arm.Case? && arm.ops == DrawSlots(size, s, p).value
    decreases k
  {
    LiveArmsUnfold(size, first, s, pos);
    if k == 0 {
      assert p == pos by {
        assert DrawsPerState(size) * 0 == 0;
      }
    } else {
      StateStartNext(size, pos, k);
      ArmDraws(size, first + 1, s, pos + DrawsPerState(size), k - 1, n, p);
      var rest := GenLiveArms(size, first + 1, s, pos + DrawsPerState(size)).value;
      assert GenLiveArms(size, first, s, pos).value[k] == rest[k - 1];
    }
  }

  /** The `k`-th live arm generated by the loop from id `first` is the arm
      `State(n @ n, s)` of the live id `n = first + k`. */
  lemma {:induction false} ArmIds(size: nat, first: nat, s: Stream, pos: nat, k: nat, n: nat)
    requires n == first + k && n < STATES
    ensures var arm := GenLiveArms(size, first, s, pos).value[k]; arm.Case? && arm.k == n
    decreases k
  {
    if k > 0 {
      ArmIds(size, first + 1, s, pos + DrawsPerState(size), k - 1, n);
      var rest := GenLiveArms(size, first + 1, s, pos + DrawsPerState(size)).value;
      assert GenLiveArms(size, first, s, pos).value[k] == rest[k - 1];
    }
  }

  /** The rule `match self` runs for discriminant `disc`: the first arm whose
      pattern matches. The wildcard and running out of arms do nothing. */
  function MatchArm(arms: seq<Arm>, disc: nat): (r: Rule)
    ensures r.Live? ==> exists i :: 0 <= i < |arms| && arms[i] == Case(disc, r.ops)
    decreases |arms|
  {
    if |arms| == 0 then Trap
    else
      match arms[0]
      case Wildcard => Trap
      case Case(k, ops) =>
        if k == disc then Live(ops)
        else
          var r := MatchArm(arms[1..], disc);
          assert r.Live? ==> exists i :: 0 <= i < |arms| && arms[i] == Case(disc, r.ops) by {
            if r.Live? {
              var i :| 0 <= i < |arms[1..]| && arms[1..][i] == Case(disc, r.ops);
              assert arms[i + 1] == Case(disc, r.ops);
            }
          }
          r
  }

  /** The arms the generator writes: a live arm for every id below 255, in
      order, then the wildcard. */
  ghost predicate GeneratedShape(arms: seq<Arm>)
  {
    && |arms| == IDS
    && arms[STATES] == Wildcard
    && forall i :: 0 <= i < STATES ==> arms[i].Case? && arms[i].k == i
  }

  /** On generated arms the match reaches arm `disc` for a live id and the
      wildcard for the trap id: no earlier arm captures the discriminant. */
  lemma {:induction false} MatchGenerated(arms: seq<Arm>, j: nat, disc: nat)
    requires GeneratedShape(arms) && j <= disc < IDS && j <= STATES
    ensures MatchArm(arms[j..], disc) == if disc < STATES then Live(arms[disc].ops) else Trap
    decreases STATES - j
  {
    assert arms[j..][0] == arms[j];
    if j < STATES && j != disc {
      assert arms[j..][1..] == arms[j + 1..];
      MatchGenerated(arms, j + 1, disc);
    }
  }

  /** The rule table the `match` dispatches to. */
  function RulesOf(em: EnumModule): seq<Rule>
  {
    seq(IDS, k requires 0 <= k < IDS => MatchArm(em.arms, k))
  }

  /** The arms of a universe drawn from `pos`, written out: live arm `i`
      with the slots of the `i`-th state, then the wildcard. */
  ghost predicate DrawnArms(arms: seq<Arm>, size: nat, s: Stream, pos: nat)
  {
    && |arms| == IDS
    && arms[STATES] == Wildcard
    && forall i :: 0 <= i < STATES ==> arms[i] == Case(i, DrawSlots(size, s, StateStart(size, pos, i)).value)
  }

  /** The loop over ids writes exactly those arms. */
  lemma ArmsLayout(size: nat, s: Stream, pos: nat)
    ensures DrawnArms(GenEnumArms(size, s, pos).value, size, s, pos)
  {
    var live := GenLiveArms(size, 0, s, pos).value;
    var arms := GenEnumArms(size, s, pos).value;
    forall i | 0 <= i < STATES
      ensures arms[i] == Case(i, DrawSlots(size, s, StateStart(size, pos, i)).value)
    {
      ArmDraws(size, 0, s, pos, i, i, StateStart(size, pos, i));
      ArmIds(size, 0, s, pos, i, i);
      assert arms[i] == live[i];
    }
  }

  /** Arms written out like that fit their size, have the generated shape
      and dispatch to the reference rule table. */
  lemma DrawnArmsAreUniverse(arms: seq<Arm>, size: nat, s: Stream, pos: nat)
    requires DrawnArms(arms, size, s, pos)
    ensures WellFormed(EnumModule(size, arms)) && GeneratedShape(arms)
    ensures RulesOf(EnumModule(size, arms)) == Universe(size, s, pos)
  {
    assert arms[0..] == arms;
    forall k | 0 <= k < IDS
      ensures RulesOf(EnumModule(size, arms))[k] == Universe(size, s, pos)[k]
    {
      MatchGenerated(arms, 0, k);
    }
  }

  /** The arms drawn from `pos` dispatch to the reference rule table. */
  lemma ArmsAreUniverse(size: nat, s: Stream, pos: nat)
    ensures var em := EnumModule(size, GenEnumArms(size, s, pos).value);
      WellFormed(em) && GeneratedShape(em.arms) && RulesOf(em) == Universe(size, s, pos)
  {
    ArmsLayout(size, s, pos);
    DrawnArmsAreUniverse(GenEnumArms(size, s, pos).value, size, s, pos);
  }

  /** `gen_enum_fsm`: 256 arms in id order, consuming exactly 255 * size * 2
      draws. */
  function GenEnumFsm(size: nat, s: Stream, pos: nat): (r: Drawn<EnumModule>)
    ensures r.value.size == size && |r.value.arms| == IDS
    ensures r.next == pos + UniverseDraws(size)
  {
    var a := GenEnumArms(size, s, pos);
    Drawn(EnumModule(size, a.value), a.next)
  }

  /** The generated arms have one op per slot and dispatch to exactly the
      reference rule table of their draws. */
  lemma GenEnumFsmRules(size: nat, s: Stream, pos: nat)
    ensures WellFormed(GenEnumFsm(size, s, pos).value)
    ensures RulesOf(GenEnumFsm(size, s, pos).value) == Universe(size, s, pos)
  {
    ArmsAreUniverse(size, s, pos);
  }

  /** The generated arms are a live arm per id below 255, in order, then the
      wildcard. */
  lemma GenEnumFsmShape(size: nat, s: Stream, pos: nat)
    ensures WellFormed(GenEnumFsm(size, s, pos).value)
    ensures GeneratedShape(GenEnumFsm(size, s, pos).value.arms)
  {
    ArmsAreUniverse(size, s, pos);
  }

  /** A tagged-union instance `State(n, s)`. */
  datatype EnumState = EnumState(n: u8, s: seq<u64>)

  function View(m: EnumState): Config
  {
    Config(m.n, m.s)
  }

  function ViewOutcome(r: Outcome<EnumState>): Outcome<Config>
  {
    match r
    case Ok(m) => Ok(View(m))
    case Panic(f) => Panic(f)
  }

  /** `init`: `size` random slots and discriminant 0. */
  function Init(em: EnumModule, s: Stream, pos: nat): (r: Drawn<EnumState>)
    ensures |r.value.s| == em.size && View(r.value) == Config(0, r.value.s)
    ensures r.next == pos + em.size
    ensures forall i :: 0 <= i < em.size ==> r.value.s[i] == s(pos + i)
  {
    var v := DrawVector(em.size, s, pos);
    Drawn(EnumState(0, v.value), v.next)
  }

  /** `<State as Fsm>::drive`: match the discriminant; a live arm updates the
      slots in place and stores `(sum % 256) as u8`, the wildcard does
      nothing. This is the reference step of the module's rule table. */
  function Drive(em: EnumModule, m: EnumState, data: u64): (r: Outcome<EnumState>)
    requires WellFormed(em) && |m.s| == em.size
    ensures r.Ok? ==> |r.value.s| == em.size
    ensures ViewOutcome(r) == RefStep(RulesOf(em), View(m), data)
  {
    match MatchArm(em.arms, m.n)
    case Trap => Ok(m)
    case Live(ops) =>
      match ApplyOps(ops, m.s, data)
      case Panic(e) => Panic(e)
      case Ok(v) => Ok(EnumState(AsU8(Selector(v)), v))
  }

  /** The wildcard arm of a generated module absorbs: a machine with
      discriminant 255 keeps its discriminant and vector for any input. */
  lemma TrapAbsorbs(size: nat, s: Stream, pos: nat, v: seq<u64>, data: u64)
    requires |v| == size
    ensures WellFormed(GenEnumFsm(size, s, pos).value)
    ensures Drive(GenEnumFsm(size, s, pos).value, EnumState(TRAP, v), data) == Ok(EnumState(TRAP, v))
  {
    var em := GenEnumFsm(size, s, pos).value;
    GenEnumFsmShape(size, s, pos);
    assert em.arms[0..] == em.arms;
    MatchGenerated(em.arms, 0, TRAP);
  }
}

=== FILE: func2_fsm.dfy ===
/** The hybrid representation (`gen_func2_fsm`): the function-table
    procedures of the same size, reached through a `Box<dyn Fsm>` whose
    `State` keeps the procedure cell and the vector inline. */
module Func2Fsm {
  import opened Outcomes
  import opened Wrapping
  import opened Rules
  import opened Generator
  import opened FuncFsm

  /** A generated `func2_fsm_{size}.rs`: it defines no procedure of its own,
      only imports `fsm_pos0` of the function-table module of its size. */
  datatype Func2Module = Func2Module(size: nat, entry: Proc)

  /** `gen_func2_fsm`: takes no stream, so it consumes no draws and leaves the
      function-table generator's stream where it was. */
  function GenFunc2Fsm(size: nat): (hm: Func2Module)
    ensures hm.size == size && hm.entry == FTable()[0]
  {
    Func2Module(size, Pos(0))
  }

  /** The hybrid `State { f, state }`. */
  datatype Func2State = Func2State(f: Proc, state: seq<u64>)

  predicate ValidState(fm: FuncModule, m: Func2State)
  {
    (m.f.Pos? ==> m.f.n < STATES) && |m.state| == fm.size
  }

  function View(m: Func2State): Config
  {
    Config(ProcId(m.f), m.state)
  }

  function ViewOutcome(r: Outcome<Func2State>): Outcome<Config>
  {
    match r
    case Ok(m) => Ok(View(m))
    case Panic(f) => Panic(f)
  }

  /** `init`: a random inline vector and the imported `fsm_pos0`. */
  function Init(hm: Func2Module, s: Stream, pos: nat): (r: Drawn<Func2State>)
    requires hm.entry == Pos(0)
    ensures |r.value.state| == hm.size && View(r.value) == Config(0, r.value.state)
    ensures r.next == pos + hm.size
    ensures forall i :: 0 <= i < hm.size ==> r.value.state[i] == s(pos + i)
  {
    var v := DrawVector(hm.size, s, pos);
    Drawn(Func2State(hm.entry, v.value), v.next)
  }

  /** `<State as Fsm>::drive`: the same call-and-overwrite as
      `FsmState::drive`, on the procedures of the function-table module `fm`;
      so it is the reference step of that module's rule table. */
  function Drive(fm: FuncModule, m: Func2State, data: u64): (r: Outcome<Func2State>)
    requires WellFormed(fm) && ValidState(fm, m)
    ensures r.Ok? ==> ValidState(fm, r.value)
    ensures m.f == PosTrap ==> r == Ok(m)
    ensures ViewOutcome(r) == RefStep(RulesOf(fm), View(m), data)
  {
    match Call(fm, m.f, m.f, m.state, data)
    case Panic(e) => Panic(e)
    case Ok(res) => Ok(Func2State(res.0, res.1))
  }
}

=== FILE: func_fsm.dfy ===
/** The function-table representation: one procedure `fsm_pos{n}` per live
    state, a 256-entry table `FTABLE` of them, and `FsmState::drive` calling
    the stored procedure, which overwrites the stored procedure. */
module FuncFsm {
  import opened Outcomes
  import opened Wrapping
  import opened Rules
  import opened Generator

  /** A generated procedure of one size's module: `fsm_pos{n}` or
      `fsm_pos_trap`. */
  datatype Proc = Pos(n: nat) | PosTrap

  /** Entry `k` of `FTABLE`. */
  function TableEntry(k: int): Proc
  {
    if 0 <= k < STATES then Pos(k) else PosTrap
  }

  /** `FTABLE`: `fsm_pos0 .. fsm_pos254`, then `fsm_pos_trap`. */
  function FTable(): seq<Proc>
  {
    seq(IDS, TableEntry)
  }

  /** The state id a procedure implements. */
  function ProcId(p: Proc): nat
  {
    match p
    case Pos(n) => n
    case PosTrap => TRAP
  }

  /** The table has one entry per state id, entry `k` implements id `k`, and
      the last entry is the trap. */
  lemma FTableLayout()
    ensures |FTable()| == IDS
    ensures FTable()[TRAP] == PosTrap
    ensures forall k :: 0 <= k < STATES ==> FTable()[k] == Pos(k)
    ensures forall k :: 0 <= k < IDS ==> ProcId(FTable()[k]) == k
  {
  }

  /** The procedures of one generated `func_fsm_{size}.rs`: `procs[n]` is the
      slot-op list of `fsm_pos{n}`. */
  datatype FuncModule = FuncModule(size: nat, procs: seq<seq<SlotOp>>)

  predicate WellFormed(fm: FuncModule)
  {
    && |fm.procs| == STATES
    && forall n :: 0 <= n < STATES ==> |fm.procs[n]| == fm.size
  }

  /** The loop `for n in first..STATES { gen_func_transition(..) }`: one
      procedure per remaining live state, in state order. */
  function GenFuncTransitions(size: nat, first: nat, s: Stream, pos: nat): (r: Drawn<seq<seq<SlotOp>>>)
    requires first <= STATES
    ensures |r.value| == STATES - first
    ensures r.next == StateStart(size, pos, STATES - first)
    decreases STATES - first
  {
    if first == STATES then Drawn([], pos)
    else
      var body := DrawSlots(size, s, pos);
      var rest := GenFuncTransitions(size, first + 1, s, body.next);
      StateStartShift(size, pos, STATES - first - 1);
      Drawn([body.value] + rest.value, rest.next)
  }

  /** The loop writes the procedure of state `first`, then continues one
      state's draws later. */
  lemma TransitionsUnfold(size: nat, first: nat, s: Stream, pos: nat)
    requires first < STATES
    ensures GenFuncTransitions(size, first, s, pos).value ==
      [DrawSlots(size, s, pos).value] + GenFuncTransitions(size, first + 1, s, pos + DrawsPerState(size)).value
  {
  }

  /** The `k`-th procedure generated from `pos`, the one of state
      `n = first + k`, draws its slots from the `k`-th state's position
      `p`. */
  lemma {:induction false} TransitionDraws(size: nat, first: nat, s: Stream, pos: nat, k: nat, n: nat, p: nat)
    requires n == first + k && n < STATES && p == StateStart(size, pos, k)
    ensures GenFuncTransitions(size, first, s, pos).value[k] == DrawSlots(size, s, p).value
    decreases k
  {
    TransitionsUnfold(size, first, s, pos);
    if k == 0 {
      assert p == pos by {
        assert DrawsPerState(size) * 0 == 0;
      }
    } else {
      StateStartNext(size, pos, k);
      TransitionDraws(size, first + 1, s, pos + DrawsPerState(size), k - 1, n, p);
      var rest := GenFuncTransitions(size, first + 1, s, pos + DrawsPerState(size)).value;
      assert GenFuncTransitions(size, first, s, pos).value[k] == rest[k - 1];
    }
  }

  /** The rule procedure `p` runs. */
  function ProcRule(fm: FuncModule, p: Proc): Rule
    requires WellFormed(fm) && (p.Pos? ==> p.n < STATES)
  {
    match p
    case Pos(n) => Live(fm.procs[n])
    case PosTrap => Trap
  }

  /** The rule table the module dispatches to through `FTABLE`. */
  function RulesOf(fm: FuncModule): seq<Rule>
    requires WellFormed(fm)
  {
    seq(IDS, k requires 0 <= k < IDS => ProcRule(fm, FTable()[k]))
  }

  /** The dispatch table of a well-formed module is a rule table of its
      size: a live rule of `size` ops for every id below 255, the trap at
      255. */
  lemma RulesOfShape(fm: FuncModule)
    requires WellFormed(fm)
    ensures WellFormedUniverse(RulesOf(fm), fm.size)
  {
    FTableLayout();
  }

  /** `gen_func_fsm`: the 255 transitions drawn in state order; the table and
      the trap procedure draw nothing, so the module consumes exactly
      255 * size * 2 draws. */
  function GenFuncFsm(size: nat, s: Stream, pos: nat): (r: Drawn<FuncModule>)
    ensures r.value.size == size && |r.value.procs| == STATES
    ensures r.next == pos + UniverseDraws(size)
  {
    var t := GenFuncTransitions(size, 0, s, pos);
    Drawn(FuncModule(size, t.value), t.next)
  }

  /** Every generated procedure has one op per slot, and the module
      dispatches through `FTABLE` to exactly the reference rule table of its
      draws. */
  lemma GenFuncFsmRules(size: nat, s: Stream, pos: nat)
    ensures WellFormed(GenFuncFsm(size, s, pos).value)
    ensures RulesOf(GenFuncFsm(size, s, pos).value) == Universe(size, s, pos)
  {
    TransitionsAreUniverse(size, s, pos);
  }

  /** The transitions drawn from `pos` dispatch through `FTABLE` to the
      reference rule table. */
  lemma TransitionsAreUniverse(size: nat, s: Stream, pos: nat)
    ensures var fm := FuncModule(size, GenFuncTransitions(size, 0, s, pos).value);
      WellFormed(fm) && RulesOf(fm) == Universe(size, s, pos)
  {
    var fm := FuncModule(size, GenFuncTransitions(size, 0, s, pos).value);
    forall n | 0 <= n < STATES
      ensures fm.procs[n] == DrawSlots(size, s, StateStart(size, pos, n)).value
    {
      TransitionDraws(size, 0, s, pos, n, n, StateStart(size, pos, n));
    }
    FTableLayout();
    assert forall k :: 0 <= k < IDS ==> RulesOf(fm)[k] == Universe(size, s, pos)[k];
  }

  /** A function-table instance: the stored procedure `f` and the vector. */
  datatype FsmState = FsmState(f: Proc, state: seq<u64>)

  predicate ValidState(fm: FuncModule, m: FsmState)
  {
    (m.f.Pos? ==> m.f.n < STATES) && |m.state| == fm.size
  }

  /** The configuration an instance is in. */
  function View(m: FsmState): Config
  {
    Config(ProcId(m.f), m.state)
  }

  function ViewOutcome(r: Outcome<FsmState>): Outcome<Config>
  {
    match r
    case Ok(m) => Ok(View(m))
    case Panic(f) => Panic(f)
  }

  /** `init`: a random vector and the procedure `fsm_pos0`. */
  function Init(fm: FuncModule, s: Stream, pos: nat): (r: Drawn<FsmState>)
    ensures ValidState(fm, r.value) && View(r.value) == Config(0, r.value.state)
    ensures r.next == pos + fm.size
    ensures forall i :: 0 <= i < fm.size ==> r.value.state[i] == s(pos + i)
  {
    var v := DrawVector(fm.size, s, pos);
    Drawn(FsmState(Pos(0), v.value), v.next)
  }

  /** Calls procedure `p` with a pointer to the cell `fcell` and to `state`:
      a live procedure updates the vector and writes `FTABLE[selector]` into
      the cell; the trap procedure touches neither. */
  function Call(fm: FuncModule, p: Proc, fcell: Proc, state: seq<u64>, data: u64): (r: Outcome<(Proc, seq<u64>)>)
    requires WellFormed(fm) && (p.Pos? ==> p.n < STATES) && |state| == fm.size
    ensures p.PosTrap? ==> r == Ok((fcell, state))
    ensures r.Ok? && p.Pos? ==> ProcId(r.value.0) == Selector(r.value.1)
    ensures r.Ok? ==> |r.value.1| == |state|
    ensures p.Pos? ==>
      (r.Ok? <==> forall i :: 0 <= i < |state| ==> ApplyOp(fm.procs[p.n][i], state[i], data).Ok?)
    ensures r.Ok? && p.Pos? ==>
      forall i :: 0 <= i < |state| ==> r.value.1[i] == ApplyOp(fm.procs[p.n][i], state[i], data).value
  {
    match p
    case PosTrap => Ok((fcell, state))
    case Pos(n) =>
      match ApplyOps(fm.procs[n], state, data)
      case Panic(e) => Panic(e)
      case Ok(v) => Ok((FTable()[Selector(v)], v))
  }

  /** `FsmState::drive`: call the stored procedure on the instance's own
      procedure cell and vector. The result is the reference step of the
      module's rule table, and the trap instance is left as it was. */
  function Drive(fm: FuncModule, m: FsmState, data: u64): (r: Outcome<FsmState>)
    requires WellFormed(fm) && ValidState(fm, m)
    ensures r.Ok? ==> ValidState(fm, r.value)
    ensures m.f == PosTrap ==> r == Ok(m)
    ensures ViewOutcome(r) == RefStep(RulesOf(fm), View(m), data)
  {
    match Call(fm, m.f, m.f, m.state, data)
    case Panic(e) => Panic(e)
    case Ok(res) => Ok(FsmState(res.0, res.1))
  }
}

=== FILE: generator.dfy ===
/** The seeded draw stream and the per-state rule generator shared by the
    function-table and enum generators of build.rs. */
module Generator {
  import opened Wrapping
  import opened Rules

  /** What a seeded `StdRng` yields: the value of the n-th draw call. Every
      call (`gen`, `gen_range`) consumes one position and yields a value
      already in the range the call asked for. */
  type Stream = nat -> u64

  /** A generated value and the stream position after its draws. */
  datatype Drawn<T> = Drawn(value: T, next: nat)

  /** The state-vector sizes, in the order the generator visits them. */
  const SIZES: seq<nat> := [4, 8, 16, 32]

  /** Draws consumed by one live state of a size-`size` universe: a constant
      and an op code per slot. */
  function DrawsPerState(size: nat): nat
  {
    2 * size
  }

  /** The slot ops of one live rule (the loop `for i in 0..size`): each slot
      draws its constant, then its op code. */
  function DrawSlots(count: nat, s: Stream, pos: nat): (r: Drawn<seq<SlotOp>>)
    ensures |r.value| == count
    ensures r.next == pos + DrawsPerState(count)
    ensures forall i :: 0 <= i < count ==> r.value[i] == DecodeOp(s(pos + 2 * i), s(pos + 2 * i + 1))
    decreases count
  {
    if count == 0 then Drawn([], pos)
    else
      var val := s(pos);
      var code := s(pos + 1);
      var rest := DrawSlots(count - 1, s, pos + 2);
      Drawn([DecodeOp(val, code)] + rest.value, rest.next)
  }

  /** The reference rule table of a size-`size` universe whose draws start at
      `pos`: live state `n` reads its slots from `pos + 2 * size * n` on, and
      the trap reads nothing. */
  function Universe(size: nat, s: Stream, pos: nat): (u: seq<Rule>)
    ensures WellFormedUniverse(u, size)
  {
    seq(IDS, n requires 0 <= n < IDS =>
      if n < STATES then Live(DrawSlots(size, s, StateStart(size, pos, n)).value) else Trap)
  }

  /** Draws consumed by a whole size-`size` universe. */
  function UniverseDraws(size: nat): nat
  {
    STATES * DrawsPerState(size)
  }

  /** Stream position where live state `n` of a universe starting at `pos`
      draws its first constant. */
  function StateStart(size: nat, pos: nat, n: nat): nat
  {
    pos + DrawsPerState(size) * n
  }

  /** The states after the first one start one state's draws later. */
  lemma StateStartShift(size: nat, pos: nat, n: nat)
    ensures StateStart(size, pos + DrawsPerState(size), n) == StateStart(size, pos, n + 1)
  {
    var d := DrawsPerState(size);
    assert d * (n + 1) == d * n + d;
  }

  /** State `n > 0` of a universe is state `n - 1` of the universe that
      starts one state's draws later. */
  lemma StateStartNext(size: nat, pos: nat, n: nat)
    requires n > 0
    ensures StateStart(size, pos + DrawsPerState(size), n - 1) == StateStart(size, pos, n)
  {
    StateStartShift(size, pos, n - 1);
  }

  /** `for v in state.iter_mut() { *v = rng.gen(); }`: `size` draws in slot
      order. */
  function DrawVector(size: nat, s: Stream, pos: nat): (r: Drawn<seq<u64>>)
    ensures |r.value| == size && r.next == pos + size
    ensures forall i :: 0 <= i < size ==> r.value[i] == s(pos + i)
    decreases size
  {
    if size == 0 then Drawn([], pos)
    else
      var rest := DrawVector(size - 1, s, pos + 1);
      Drawn([s(pos)] + rest.value, rest.next)
  }

  /** The RNG's promise for the rule generator's draws starting at `pos`:
      constants from `gen_range(1, u64::MAX)`, codes from `gen_range(0, 5)`. */
  ghost predicate RuleDrawsRanged(s: Stream, pos: nat, count: nat)
  {
    forall i :: 0 <= i < count ==> 1 <= s(pos + 2 * i) < U64_MAX && s(pos + 2 * i + 1) < 5
  }

  /** With ranged draws every generated constant lies in [1, 2^64 - 2], and a
      generated divide panics exactly on the input `2^64 - val`. */
  lemma GeneratedConstantsInRange(count: nat, s: Stream, pos: nat, i: nat, x: u64, data: u64)
    requires RuleDrawsRanged(s, pos, count) && i < count
    ensures var op := DrawSlots(count, s, pos).value[i];
      && (!op.Keep? ==> 1 <= op.val <= U64_MAX - 1)
      && (op.Div? ==> (ApplyOp(op, x, data).Panic? <==> data == MODULUS - op.val))
  {
    var op := DrawSlots(count, s, pos).value[i];
    if op.Div? {
      DivPanicsIff(op.val, x, data);
    }
  }
}

=== FILE: harness.dfy ===
/** The benchmark harness of `src/main.rs`: `single_run!` builds a population
    of machines and a workload from the seeded stream and drives them;
    `bench_run!` repeats it; `main` runs it for the three representations.
    Timing is left out: a repetition's observable result is the population
    before and after the workload. */
module Harness {
  import opened Outcomes
  import opened Wrapping
  import opened Rules
  import opened Generator
  import FuncFsm
  import Func2Fsm
  import EnumFsm
  import opened Build

  const BENCH_WARMUPS: nat := 256
  const BENCH_RUNS: nat := 4096
  const HEAP_RUNS_PER_BENCH: nat := 65536
  const FSM_COUNT: nat := 256

  /** The three representations `main` benchmarks, in the order it runs
      them. */
  datatype Variant = Function | Hybrid | Enum

  /** A boxed machine of one representation. */
  datatype Machine = FuncM(f: FuncFsm.FsmState) | HybridM(h: Func2Fsm.Func2State) | EnumM(e: EnumFsm.EnumState)

  /** An element of `states`: the machine and the index into `SIZES` of the
      module it was created from. */
  datatype Instance = Instance(k: nat, m: Machine)

  function VariantOf(inst: Instance): Variant
  {
    match inst.m
    case FuncM(_) => Function
    case HybridM(_) => Hybrid
    case EnumM(_) => Enum
  }

  /** The configuration an instance is in, whatever its representation. */
  function View(inst: Instance): Config
  {
    match inst.m
    case FuncM(f) => FuncFsm.View(f)
    case HybridM(h) => Func2Fsm.View(h)
    case EnumM(e) => EnumFsm.View(e)
  }

  /** An instance its module can drive. */
  predicate ValidInstance(b: Built, inst: Instance)
  {
    && inst.k < |SIZES| && inst.k < |b.func| && inst.k < |b.enums|
    && match inst.m
       case FuncM(f) => FuncFsm.ValidState(b.func[inst.k], f)
       case HybridM(h) => Func2Fsm.ValidState(b.func[inst.k], h)
       case EnumM(e) => |e.s| == b.enums[inst.k].size
  }

  /** The rule table an instance runs: the function-table module's for the
      function-table and hybrid machines, the enum module's for the enum
      machine. */
  function InstanceRules(b: Built, inst: Instance): seq<Rule>
    requires WellFormedBuilt(b) && inst.k < |SIZES|
  {
    match inst.m
    case EnumM(_) => EnumFsm.RulesOf(b.enums[inst.k])
    case _ => FuncFsm.RulesOf(b.func[inst.k])
  }

  /** The rule table of size index `k`. */
  function TableOf(b: Built, k: nat): (u: seq<Rule>)
    requires WellFormedBuilt(b) && k < |SIZES|
  {
    FuncFsm.RulesOf(b.func[k])
  }

  /** When the build's rule tables agree, every instance runs the table of
      its size index, whatever its representation. */
  lemma InstanceRulesAgree(b: Built, inst: Instance)
    requires WellFormedBuilt(b) && RulesAgree(b) && inst.k < |SIZES|
    ensures InstanceRules(b, inst) == TableOf(b, inst.k)
    ensures WellFormedUniverse(TableOf(b, inst.k), SIZES[inst.k])
  {
    FuncFsm.RulesOfShape(b.func[inst.k]);
  }

  /** `init` of the module of size `SIZES[k]` in representation `v`. */
  function InitInstance(b: Built, v: Variant, k: nat, s: Stream, pos: nat): (r: Drawn<Instance>)
    requires WellFormedBuilt(b) && k < |SIZES|
    ensures ValidInstance(b, r.value) && VariantOf(r.value) == v && r.value.k == k
    ensures View(r.value).id == 0 && |View(r.value).vec| == SIZES[k]
    ensures forall i :: 0 <= i < SIZES[k] ==> View(r.value).vec[i] == s(pos + i)
    ensures r.next == pos + SIZES[k]
  {
    match v
    case Function =>
      var m := FuncFsm.Init(b.func[k], s, pos);
      Drawn(Instance(k, FuncM(m.value)), m.next)
    case Hybrid =>
      var m := Func2Fsm.Init(b.hybrid[k], s, pos);
      Drawn(Instance(k, HybridM(m.value)), m.next)
    case Enum =>
      var m := EnumFsm.Init(b.enums[k], s, pos);
      Drawn(Instance(k, EnumM(m.value)), m.next)
  }

  /** `match rng.gen_range(0, 4)`: 0, 1 and 2 pick sizes 4, 8 and 16; every
      other value picks 32. */
  function SizeChoice(code: u64): (k: nat)
    ensures k < |SIZES|
    ensures code < 3 ==> k == code
    ensures code >= 3 ==> k == 3
  {
    if code == 0 then 0 else if code == 1 then 1 else if code == 2 then 2 else 3
  }

  /** The slots of a population's instances. An out-of-range size index
      counts as the first size only to keep the function total: every
      population it is applied to is valid, and a valid instance's size index
      lies inside `SIZES`. */
  function SlotCount(pop: seq<Instance>): nat
  {
    if |pop| == 0 then 0 else SIZES[if pop[0].k < |SIZES| then pop[0].k else 0] + SlotCount(pop[1..])
  }

  /** All instances of a population are valid, of representation `v`, and
      in state 0. */
  predicate FreshPopulation(b: Built, v: Variant, pop: seq<Instance>)
  {
    forall i :: 0 <= i < |pop| ==> ValidInstance(b, pop[i]) && VariantOf(pop[i]) == v && View(pop[i]).id == 0
  }

  /** The `for _ in 0..FSM_COUNT` loop from `count` remaining instances on:
      each draws its size choice, then its `init` draws its vector. */
  function Populate(b: Built, v: Variant, count: nat, s: Stream, pos: nat): (r: Drawn<seq<Instance>>)
    requires WellFormedBuilt(b)
    ensures |r.value| == count
    ensures FreshPopulation(b, v, r.value)
    ensures r.next == pos + count + SlotCount(r.value)
    decreases count
  {
    if count == 0 then Drawn([], pos)
    else
      var inst := InitInstance(b, v, SizeChoice(s(pos)), s, pos + 1);
      var rest := Populate(b, v, count - 1, s, inst.next);
      PopulationCons(b, v, inst.value, rest.value);
      Drawn([inst.value] + rest.value, rest.next)
  }

  /** The size indices of a population. */
  function Ks(pop: seq<Instance>): seq<nat>
  {
    seq(|pop|, i requires 0 <= i < |pop| => pop[i].k)
  }

  /** The configurations of a population. */
  function Views(pop: seq<Instance>): seq<Config>
  {
    seq(|pop|, i requires 0 <= i < |pop| => View(pop[i]))
  }

  /** Prepending a fresh instance keeps a population fresh and adds its
      slots, size index and configuration in front. */
  lemma PopulationCons(b: Built, v: Variant, x: Instance, pop: seq<Instance>)
    requires ValidInstance(b, x) && VariantOf(x) == v && View(x).id == 0
    requires FreshPopulation(b, v, pop)
    ensures FreshPopulation(b, v, [x] + pop)
    ensures SlotCount([x] + pop) == SIZES[x.k] + SlotCount(pop)
    ensures Ks([x] + pop) == [x.k] + Ks(pop)
    ensures Views([x] + pop) == [View(x)] + Views(pop)
  {
    assert ([x] + pop)[1..] == pop;
  }

  /** Where one instance of the population loop draws, whatever the
      representation: the size index its `gen_range(0, 4)` choice maps to,
      and the position its `init` starts drawing its vector from. */
  datatype Placement = Placement(k: nat, start: nat)

  /** The stream position `n` draws after `pos`. Naming the sum keeps the
      positions of the reference layout and of the population loop
      syntactically alike, so that lemma instantiations line up. */
  function After(pos: nat, n: nat): nat
  {
    pos + n
  }

  /** The population loop's draws on their own: a size choice, then that
      size's vector, instance after instance. */
  function RefLayout(count: nat, s: Stream, pos: nat): (r: Drawn<seq<Placement>>)
    ensures |r.value| == count
    decreases count
  {
    if count == 0 then Drawn([], pos)
    else
      var k := SizeChoice(s(pos));
      var rest := RefLayout(count - 1, s, After(pos + 1, SIZES[k]));
      Drawn([Placement(k, pos + 1)] + rest.value, rest.next)
  }

  /** The size indices a layout places. */
  function PlacedKs(l: seq<Placement>): seq<nat>
  {
    seq(|l|, i requires 0 <= i < |l| => l[i].k)
  }

  /** The `len` draws from `start` on, in order. */
  function Window(s: Stream, start: nat, len: nat): seq<u64>
  {
    seq(len, j requires 0 <= j < len => s(start + j))
  }

  /** The configurations a layout describes: instance `i` in id 0 with its
      size's worth of draws from its start. */
  function LaidOut(l: seq<Placement>, s: Stream): (views: seq<Config>)
    ensures |views| == |l|
    ensures forall i :: 0 <= i < |l| ==> views[i].id == 0
  {
    seq(|l|, i requires 0 <= i < |l| =>
      Config(0, Window(s, l[i].start, SIZES[if l[i].k < |SIZES| then l[i].k else 0])))
  }

  /** `m` iterations of the reference followed by `n` more are `m + n`
      iterations: the same placements, stopping at the same position. */
  lemma {:induction false} RefLayoutSplit(m: nat, n: nat, s: Stream, pos: nat)
    ensures var first := RefLayout(m, s, pos);
      var rest := RefLayout(n, s, first.next);
      var whole := RefLayout(m + n, s, pos);
      whole.value == first.value + rest.value && whole.next == rest.next
    decreases m
  {
    if m > 0 {
      var x := Placement(SizeChoice(s(pos)), pos + 1);
      var q := After(pos + 1, SIZES[x.k]);
      RefLayoutSplit(m - 1, n, s, q);
      assert m + n - 1 == (m - 1) + n;
      var f := RefLayout(m - 1, s, q).value;
      var r := RefLayout(n, s, RefLayout(m - 1, s, q).next).value;
      assert [x] + (f + r) == ([x] + f) + r;
    } else {
      assert RefLayout(m, s, pos).value == [];
    }
  }

  /** Instance `i` draws its size choice where the first `i` instances'
      draws stop, and its vector right after that choice. */
  lemma {:induction false} RefLayoutAt(count: nat, s: Stream, pos: nat, i: nat)
    requires i < count
    ensures var p := RefLayout(i, s, pos).next;
      RefLayout(count, s, pos).value[i] == Placement(SizeChoice(s(p)), p + 1)
  {
    RefLayoutSplit(i, count - i, s, pos);
    var p := RefLayout(i, s, pos).next;
    var first := RefLayout(i, s, pos).value;
    var rest := RefLayout(count - i, s, p).value;
    assert (first + rest)[i] == rest[0];
  }

  /** The configuration `init` starts in is id 0 with the `SIZES[k]` draws
      from `pos`, whatever the representation. */
  lemma InitInstanceView(b: Built, v: Variant, k: nat, s: Stream, pos: nat)
    requires WellFormedBuilt(b) && k < |SIZES|
    ensures View(InitInstance(b, v, k, s, pos).value) == Config(0, Window(s, pos, SIZES[k]))
  {
    var c := View(InitInstance(b, v, k, s, pos).value);
    WindowOf(c.vec, s, pos);
  }

  /** A vector whose every slot is the draw at its offset from `start` is
      the window of the draws from `start`. */
  lemma WindowOf(vec: seq<u64>, s: Stream, start: nat)
    requires forall j :: 0 <= j < |vec| ==> vec[j] == s(start + j)
    ensures vec == Window(s, start, |vec|)
  {
  }

  /** An instance of size index `k` starting in `c` was drawn at `p`: its
      `gen_range(0, 4)` choice is the draw at `p`, it starts in id 0, and its
      vector holds its size's worth of draws right after `p`. */
  predicate DrawnAt(k: nat, c: Config, s: Stream, p: nat)
  {
    && k == SizeChoice(s(p))
    && c.id == 0
    && |c.vec| == SIZES[k]
    && forall j :: 0 <= j < SIZES[k] ==> c.vec[j] == s(p + 1 + j)
  }

  /** Instance `i` of a layout, whose size choice sits at `p`, is drawn at
      `p`. */
  lemma LaidOutAt(ks: seq<nat>, views: seq<Config>, l: seq<Placement>, s: Stream, i: nat, p: nat)
    requires ks == PlacedKs(l) && views == LaidOut(l, s)
    requires i < |l| && l[i] == Placement(SizeChoice(s(p)), p + 1)
    ensures DrawnAt(ks[i], views[i], s, p)
  {
  }

  /** Placing one more instance in front puts its size index in front. */
  lemma PlacedKsCons(x: Placement, l: seq<Placement>)
    ensures PlacedKs([x] + l) == [x.k] + PlacedKs(l)
  {
    assert forall i :: 0 < i < |l| + 1 ==> ([x] + l)[i] == l[i - 1];
  }

  /** ... and its configuration in front. */
  lemma LaidOutCons(x: Placement, l: seq<Placement>, s: Stream)
    requires x.k < |SIZES|
    ensures LaidOut([x] + l, s) == [Config(0, Window(s, x.start, SIZES[x.k]))] + LaidOut(l, s)
  {
    assert forall i :: 0 < i < |l| + 1 ==> ([x] + l)[i] == l[i - 1];
  }

  /** Prepending an instance prepends its configuration. */
  lemma ViewsCons(x: Instance, pop: seq<Instance>)
    ensures Views([x] + pop) == [View(x)] + Views(pop)
  {
    assert forall i :: 0 < i < |pop| + 1 ==> ([x] + pop)[i] == pop[i - 1];
  }

  /** One iteration of the population loop: the instance drawn at `pos`,
      then the rest of the loop from where its `init` stops. */
  lemma PopulateStep(b: Built, v: Variant, count: nat, s: Stream, pos: nat)
    requires WellFormedBuilt(b) && count > 0
    ensures var k := SizeChoice(s(pos));
      var inst := InitInstance(b, v, k, s, pos + 1);
      var rest := Populate(b, v, count - 1, s, After(pos + 1, SIZES[k]));
      inst.next == After(pos + 1, SIZES[k]) && inst.value.k == k &&
      Populate(b, v, count, s, pos) == Drawn([inst.value] + rest.value, rest.next)
  {
  }

  /** A population drew its size indices where a layout places them and
      stopped where the layout stops. */
  predicate Placed(pop: Drawn<seq<Instance>>, lay: Drawn<seq<Placement>>)
  {
    Ks(pop.value) == PlacedKs(lay.value) && pop.next == lay.next
  }

  /** Prepending an instance and a placement of the same size index keeps
      a population placed by its layout. */
  lemma PlacedCons(pop: Drawn<seq<Instance>>, inst: Instance, rest: Drawn<seq<Instance>>,
                   lay: Drawn<seq<Placement>>, p: Placement, ref: Drawn<seq<Placement>>)
    requires pop == Drawn([inst] + rest.value, rest.next) && lay == Drawn([p] + ref.value, ref.next)
    requires inst.k == p.k && Placed(rest, ref)
    ensures Placed(pop, lay)
  {
    KsCons(inst, rest.value);
    PlacedKsCons(p, ref.value);
  }

  /** The population loop draws exactly where the reference draws: the same
      size indices, and it stops at the same position, for every
      representation. */
  lemma {:induction false} PopulateRefines(b: Built, v: Variant, count: nat, s: Stream, pos: nat)
    requires WellFormedBuilt(b)
    ensures Placed(Populate(b, v, count, s, pos), RefLayout(count, s, pos))
    decreases count
  {
    if count > 0 {
      var k := SizeChoice(s(pos));
      var at := After(pos + 1, SIZES[k]);
      PopulateStep(b, v, count, s, pos);
      PopulateRefines(b, v, count - 1, s, at);
      PlacedCons(Populate(b, v, count, s, pos), InitInstance(b, v, k, s, pos + 1).value, Populate(b, v, count - 1, s, at),
                 RefLayout(count, s, pos), Placement(k, pos + 1), RefLayout(count - 1, s, at));
    }
  }

  /** Prepending an instance prepends its size index. */
  lemma KsCons(x: Instance, pop: seq<Instance>)
    ensures Ks([x] + pop) == [x.k] + Ks(pop)
  {
    assert forall i :: 0 < i < |pop| + 1 ==> ([x] + pop)[i] == pop[i - 1];
  }

  /** ... and its instances start in the configurations the layout
      describes. */
  lemma {:induction false} PopulateViews(b: Built, v: Variant, count: nat, s: Stream, pos: nat)
    requires WellFormedBuilt(b)
    ensures Views(Populate(b, v, count, s, pos).value) == LaidOut(RefLayout(count, s, pos).value, s)
    decreases count
  {
    if count > 0 {
      var k := SizeChoice(s(pos));
      var inst := InitInstance(b, v, k, s, pos + 1);
      assert inst.next == After(pos + 1, SIZES[k]);
      var rest := Populate(b, v, count - 1, s, inst.next).value;
      InitInstanceView(b, v, k, s, pos + 1);
      PopulateViews(b, v, count - 1, s, inst.next);
      ViewsCons(inst.value, rest);
      LaidOutCons(Placement(k, pos + 1), RefLayout(count - 1, s, inst.next).value, s);
    }
  }

  /** Instance `i` of the population takes its size from the `gen_range(0,
      4)` draw where the loop's first `i` iterations stop, starts in id 0,
      and fills its vector from the draws right after that choice. */
  lemma PopulateAt(b: Built, v: Variant, count: nat, s: Stream, pos: nat, i: nat)
    requires WellFormedBuilt(b) && i < count
    ensures var pop := Populate(b, v, count, s, pos).value;
      DrawnAt(Ks(pop)[i], Views(pop)[i], s, Populate(b, v, i, s, pos).next)
  {
    var pop := Populate(b, v, count, s, pos).value;
    PopulateRefines(b, v, i, s, pos);
    PopulateRefines(b, v, count, s, pos);
    PopulateViews(b, v, count, s, pos);
    RefLayoutAt(count, s, pos, i);
    LaidOutAt(Ks(pop), Views(pop), RefLayout(count, s, pos).value, s, i, RefLayout(i, s, pos).next);
  }

  /** Whatever the representation, the population drawn from a position has
      the same size indices and configurations and consumes the same draws:
      every `init` draws its `SIZE` values the same way. */
  lemma {:induction false} PopulateAgree(b: Built, v1: Variant, v2: Variant, count: nat, s: Stream, pos: nat)
    requires WellFormedBuilt(b)
    ensures Ks(Populate(b, v1, count, s, pos).value) == Ks(Populate(b, v2, count, s, pos).value)
    ensures Views(Populate(b, v1, count, s, pos).value) == Views(Populate(b, v2, count, s, pos).value)
    ensures Populate(b, v1, count, s, pos).next == Populate(b, v2, count, s, pos).next
    decreases count
  {
    if count > 0 {
      var k := SizeChoice(s(pos));
      var i1 := InitInstance(b, v1, k, s, pos + 1);
      var i2 := InitInstance(b, v2, k, s, pos + 1);
      assert View(i1.value) == View(i2.value);
      PopulateAgree(b, v1, v2, count - 1, s, i1.next);
      var r1 := Populate(b, v1, count - 1, s, i1.next).value;
      var r2 := Populate(b, v2, count - 1, s, i2.next).value;
      PopulationCons(b, v1, i1.value, r1);
      PopulationCons(b, v2, i2.value, r2);
    }
  }

  /** One iteration of the drive loop: the index into `states` and the input
      it is driven with. */
  datatype Job = Job(idx: nat, data: u64)

  /** `idxs.iter().zip(data)`: pairs the k-th index with the k-th input and
      stops at the shorter sequence. */
  function Zip(idxs: seq<u64>, data: seq<u64>): (jobs: seq<Job>)
    ensures |jobs| == if |idxs| <= |data| then |idxs| else |data|
    ensures forall i :: 0 <= i < |jobs| ==> jobs[i] == Job(idxs[i], data[i])
  {
    if |idxs| == 0 || |data| == 0 then []
    else [Job(idxs[0], data[0])] + Zip(idxs[1..], data[1..])
  }

  /** `states[idx].drive(d)` on one instance, dispatched by representation:
      the hybrid runs the procedures of the function-table module of its
      size. */
  function DriveInstance(b: Built, inst: Instance, data: u64): (r: Outcome<Instance>)
    requires WellFormedBuilt(b) && ValidInstance(b, inst)
    ensures r.Ok? ==> ValidInstance(b, r.value) && r.value.k == inst.k && VariantOf(r.value) == VariantOf(inst)
    ensures r.Panic? ==> r.fault == DivideByZero
    ensures ViewOutcome(r) == RefStep(InstanceRules(b, inst), View(inst), data)
  {
    match inst.m
    case FuncM(f) =>
      (match FuncFsm.Drive(b.func[inst.k], f, data)
       case Panic(e) => Panic(e)
       case Ok(f') => Ok(Instance(inst.k, FuncM(f'))))
    case HybridM(h) =>
      (match Func2Fsm.Drive(b.func[inst.k], h, data)
       case Panic(e) => Panic(e)
       case Ok(h') => Ok(Instance(inst.k, HybridM(h'))))
    case EnumM(e) =>
      (match EnumFsm.Drive(b.enums[inst.k], e, data)
       case Panic(f) => Panic(f)
       case Ok(e') => Ok(Instance(inst.k, EnumM(e'))))
  }

  function ViewOutcome(r: Outcome<Instance>): Outcome<Config>
  {
    match r
    case Ok(inst) => Ok(View(inst))
    case Panic(f) => Panic(f)
  }

  function ViewsOutcome(r: Outcome<seq<Instance>>): Outcome<seq<Config>>
  {
    match r
    case Ok(pop) => Ok(Views(pop))
    case Panic(f) => Panic(f)
  }

  /** Every instance of a population is valid and keeps representation `v`. */
  predicate ValidPopulation(b: Built, v: Variant, pop: seq<Instance>)
  {
    forall i :: 0 <= i < |pop| ==> ValidInstance(b, pop[i]) && VariantOf(pop[i]) == v
  }

  /** The inputs a workload feeds instance `i`: the data of the jobs whose
      index is `i`, in workload order. */
  function InputsFor(jobs: seq<Job>, i: nat): (inputs: seq<u64>)
    ensures |inputs| <= |jobs|
    ensures (forall n :: 0 <= n < |jobs| ==> jobs[n].idx != i) ==> inputs == []
    decreases |jobs|
  {
    if |jobs| == 0 then []
    else (if jobs[0].idx == i then [jobs[0].data] else []) + InputsFor(jobs[1..], i)
  }

  /** The drive loop `for (&idx, d) in .. { states[idx].drive(d); }`: `Vec`
      indexing panics on an index past the end, a division by zero panics,
      and either aborts the loop. */
  function DriveAll(b: Built, v: Variant, pop: seq<Instance>, jobs: seq<Job>): (r: Outcome<seq<Instance>>)
    requires WellFormedBuilt(b) && ValidPopulation(b, v, pop)
    ensures r.Ok? ==> |r.value| == |pop|
    decreases |jobs|
  {
    if |jobs| == 0 then Ok(pop)
    else if jobs[0].idx >= |pop| then Panic(IndexOutOfBounds)
    else
      match DriveInstance(b, pop[jobs[0].idx], jobs[0].data)
      case Panic(e) => Panic(e)
      case Ok(inst) => DriveAll(b, v, pop[jobs[0].idx := inst], jobs[1..])
  }

  /** The drive loop keeps every instance valid, of its representation and
      of its size. */
  lemma {:induction false} DriveAllKeeps(b: Built, v: Variant, pop: seq<Instance>, jobs: seq<Job>)
    requires WellFormedBuilt(b) && ValidPopulation(b, v, pop)
    ensures DriveAll(b, v, pop, jobs).Ok? ==> ValidPopulation(b, v, DriveAll(b, v, pop, jobs).value)
    ensures DriveAll(b, v, pop, jobs).Ok? ==> Ks(DriveAll(b, v, pop, jobs).value) == Ks(pop)
    decreases |jobs|
  {
    if |jobs| > 0 && jobs[0].idx < |pop| {
      match DriveInstance(b, pop[jobs[0].idx], jobs[0].data)
      case Panic(e) =>
      case Ok(inst) =>
        var pop' := pop[jobs[0].idx := inst];
        assert Ks(pop') == Ks(pop);
        DriveAllKeeps(b, v, pop', jobs[1..]);
    }
  }

  /** When every index of the workload lies inside the population, the loop
      never indexes past it: only a division by zero can abort it. */
  lemma {:induction false} DriveAllInBounds(b: Built, v: Variant, pop: seq<Instance>, jobs: seq<Job>)
    requires WellFormedBuilt(b) && ValidPopulation(b, v, pop)
    requires forall i :: 0 <= i < |jobs| ==> jobs[i].idx < |pop|
    ensures DriveAll(b, v, pop, jobs).Panic? ==> DriveAll(b, v, pop, jobs).fault == DivideByZero
    decreases |jobs|
  {
    if |jobs| > 0 {
      match DriveInstance(b, pop[jobs[0].idx], jobs[0].data)
      case Panic(e) =>
      case Ok(inst) =>
        DriveAllInBounds(b, v, pop[jobs[0].idx := inst], jobs[1..]);
    }
  }

  /** The drive loop, instance by instance: a completed loop leaves
      instance `i` where driving it alone with the data of the jobs that
      index it, in order, leaves it; and when every index lies inside the
      population, the loop completes exactly when every one of these runs
      does. */
  lemma {:induction false} DriveAllRuns(b: Built, v: Variant, pop: seq<Instance>, jobs: seq<Job>)
    requires WellFormedBuilt(b) && ValidPopulation(b, v, pop)
    ensures DriveAll(b, v, pop, jobs).Ok? ==>
      forall i :: 0 <= i < |pop| ==>
        RunInstance(b, pop[i], InputsFor(jobs, i)) == Ok(DriveAll(b, v, pop, jobs).value[i])
    ensures (forall n :: 0 <= n < |jobs| ==> jobs[n].idx < |pop|) ==>
      (DriveAll(b, v, pop, jobs).Ok? <==> forall i :: 0 <= i < |pop| ==> RunInstance(b, pop[i], InputsFor(jobs, i)).Ok?)
    decreases |jobs|
  {
    if |jobs| > 0 && jobs[0].idx < |pop| {
      DriveStepRuns(b, v, pop, jobs);
      match DriveInstance(b, pop[jobs[0].idx], jobs[0].data)
      case Panic(e) =>
      case Ok(inst) =>
        DriveAllRuns(b, v, pop[jobs[0].idx := inst], jobs[1..]);
    }
  }

  /** The first job of a workload: if its drive panics, so does the run of
      the instance it indexes; otherwise every instance's run over the
      workload is its run, in the population after that drive, over the rest
      of the workload. */
  lemma DriveStepRuns(b: Built, v: Variant, pop: seq<Instance>, jobs: seq<Job>)
    requires WellFormedBuilt(b) && ValidPopulation(b, v, pop)
    requires |jobs| > 0 && jobs[0].idx < |pop|
    ensures var j := jobs[0].idx;
      DriveInstance(b, pop[j], jobs[0].data).Panic? ==> RunInstance(b, pop[j], InputsFor(jobs, j)).Panic?
    ensures var j := jobs[0].idx;
      DriveInstance(b, pop[j], jobs[0].data).Ok? ==>
        var pop' := pop[j := DriveInstance(b, pop[j], jobs[0].data).value];
        ValidPopulation(b, v, pop') &&
        forall i :: 0 <= i < |pop| ==> RunInstance(b, pop'[i], InputsFor(jobs[1..], i)) == RunInstance(b, pop[i], InputsFor(jobs, i))
  {
    var j, d, rest := jobs[0].idx, jobs[0].data, jobs[1..];
    assert InputsFor(jobs, j) == [d] + InputsFor(rest, j);
    assert ([d] + InputsFor(rest, j))[1..] == InputsFor(rest, j);
    forall i | 0 <= i < |pop| && i != j
      ensures InputsFor(jobs, i) == InputsFor(rest, i)
    {
    }
  }

  /** An instance no job indexes is left as it was. */
  lemma DriveAllUntouched(b: Built, v: Variant, pop: seq<Instance>, jobs: seq<Job>, i: nat)
    requires WellFormedBuilt(b) && ValidPopulation(b, v, pop)
    requires i < |pop| && forall n :: 0 <= n < |jobs| ==> jobs[n].idx != i
    ensures DriveAll(b, v, pop, jobs).Ok? ==> DriveAll(b, v, pop, jobs).value[i] == pop[i]
  {
    DriveAllRuns(b, v, pop, jobs);
  }

  /** Rule tables indexed like `SIZES`, table `k` for size `SIZES[k]`. */
  ghost predicate WellFormedTables(tables: seq<seq<Rule>>)
  {
    |tables| == |SIZES| && forall k :: 0 <= k < |SIZES| ==> WellFormedUniverse(tables[k], SIZES[k])
  }

  /** Configurations paired with size indices, each valid for its size. */
  predicate ValidConfigs(ks: seq<nat>, cs: seq<Config>)
  {
    |ks| == |cs| && forall i :: 0 <= i < |ks| ==> ks[i] < |SIZES| && ValidConfig(cs[i], SIZES[ks[i]])
  }

  /** The reference drive loop over configurations: job `(idx, d)` steps
      configuration `idx` by the rule table of its size index; an index past
      the end panics. */
  function RefDriveAll(tables: seq<seq<Rule>>, ks: seq<nat>, cs: seq<Config>, jobs: seq<Job>): (r: Outcome<seq<Config>>)
    requires WellFormedTables(tables) && ValidConfigs(ks, cs)
    ensures r.Ok? ==> ValidConfigs(ks, r.value)
    decreases |jobs|
  {
    if |jobs| == 0 then Ok(cs)
    else if jobs[0].idx >= |cs| then Panic(IndexOutOfBounds)
    else
      var j := jobs[0].idx;
      match RefStep(tables[ks[j]], cs[j], jobs[0].data)
      case Panic(e) => Panic(e)
      case Ok(c) => RefDriveAll(tables, ks, cs[j := c], jobs[1..])
  }

  /** The reference drive loop, configuration by configuration: a completed
      loop leaves configuration `i` where the reference run of its size's
      table over the data of the jobs that index it leaves it; and when
      every index lies inside, the loop completes exactly when every one of
      these runs does. */
  lemma {:induction false} RefDriveAllRuns(tables: seq<seq<Rule>>, ks: seq<nat>, cs: seq<Config>, jobs: seq<Job>)
    requires WellFormedTables(tables) && ValidConfigs(ks, cs)
    ensures RefDriveAll(tables, ks, cs, jobs).Ok? ==>
      forall i :: 0 <= i < |cs| ==>
        RefRun(tables[ks[i]], cs[i], InputsFor(jobs, i)) == Ok(RefDriveAll(tables, ks, cs, jobs).value[i])
    ensures (forall n :: 0 <= n < |jobs| ==> jobs[n].idx < |cs|) ==>
      (RefDriveAll(tables, ks, cs, jobs).Ok? <==>
       forall i :: 0 <= i < |cs| ==> RefRun(tables[ks[i]], cs[i], InputsFor(jobs, i)).Ok?)
    decreases |jobs|
  {
    if |jobs| > 0 && jobs[0].idx < |cs| {
      var j, d, rest := jobs[0].idx, jobs[0].data, jobs[1..];
      assert InputsFor(jobs, j) == [d] + InputsFor(rest, j);
      assert ([d] + InputsFor(rest, j))[1..] == InputsFor(rest, j);
      match RefStep(tables[ks[j]], cs[j], d)
      case Panic(e) =>
      case Ok(c) =>
        var cs' := cs[j := c];
        RefDriveAllRuns(tables, ks, cs', rest);
        forall i | 0 <= i < |cs|
          ensures RefRun(tables[ks[i]], cs'[i], InputsFor(rest, i)) == RefRun(tables[ks[i]], cs[i], InputsFor(jobs, i))
        {
          if i != j {
            assert InputsFor(jobs, i) == InputsFor(rest, i);
          }
        }
    }
  }

  /** The rule table of every size, as the function-table modules dispatch
      it. */
  function Tables(b: Built): seq<seq<Rule>>
    requires WellFormedBuilt(b)
  {
    seq(|SIZES|, k requires 0 <= k < |SIZES| => TableOf(b, k))
  }

  /** The built tables are rule tables of their sizes. */
  lemma TablesWellFormed(b: Built)
    requires WellFormedBuilt(b)
    ensures WellFormedTables(Tables(b))
  {
    forall k | 0 <= k < |SIZES|
      ensures WellFormedUniverse(Tables(b)[k], SIZES[k])
    {
      FuncFsm.RulesOfShape(b.func[k]);
    }
  }

  /** A valid instance's configuration is valid for its size. */
  lemma ViewValid(b: Built, inst: Instance)
    requires WellFormedBuilt(b) && ValidInstance(b, inst)
    ensures ValidConfig(View(inst), SIZES[inst.k])
  {
    FuncFsm.FTableLayout();
  }

  /** Driving a population is the reference drive loop on its
      configurations, whatever the representation. */
  lemma {:induction false} DriveAllRefines(b: Built, v: Variant, pop: seq<Instance>, jobs: seq<Job>)
    requires WellFormedBuilt(b) && RulesAgree(b) && ValidPopulation(b, v, pop)
    ensures WellFormedTables(Tables(b)) && ValidConfigs(Ks(pop), Views(pop))
    ensures ViewsOutcome(DriveAll(b, v, pop, jobs)) == RefDriveAll(Tables(b), Ks(pop), Views(pop), jobs)
    decreases |jobs|
  {
    TablesWellFormed(b);
    forall i | 0 <= i < |pop|
      ensures ValidConfig(Views(pop)[i], SIZES[Ks(pop)[i]])
    {
      ViewValid(b, pop[i]);
    }
    if |jobs| > 0 && jobs[0].idx < |pop| {
      var j := jobs[0].idx;
      InstanceRulesAgree(b, pop[j]);
      match DriveInstance(b, pop[j], jobs[0].data)
      case Panic(e) =>
      case Ok(inst) =>
        var pop' := pop[j := inst];
        assert Views(pop') == Views(pop)[j := View(inst)];
        assert Ks(pop') == Ks(pop);
        DriveAllRefines(b, v, pop', jobs[1..]);
    }
  }

  /** Two populations with the same size indices and configurations end the
      same workload in the same configurations, or panic alike. */
  lemma DriveAllAgree(b: Built, v1: Variant, v2: Variant, pop1: seq<Instance>, pop2: seq<Instance>, jobs: seq<Job>)
    requires WellFormedBuilt(b) && RulesAgree(b)
    requires ValidPopulation(b, v1, pop1) && ValidPopulation(b, v2, pop2)
    requires Ks(pop1) == Ks(pop2) && Views(pop1) == Views(pop2)
    ensures ViewsOutcome(DriveAll(b, v1, pop1, jobs)) == ViewsOutcome(DriveAll(b, v2, pop2, jobs))
  {
    DriveAllRefines(b, v1, pop1, jobs);
    DriveAllRefines(b, v2, pop2, jobs);
  }

  /** Drives one instance with each input in turn; a panic aborts. */
  function RunInstance(b: Built, inst: Instance, inputs: seq<u64>): (r: Outcome<Instance>)
    requires WellFormedBuilt(b) && ValidInstance(b, inst)
    ensures r.Ok? ==> ValidInstance(b, r.value) && r.value.k == inst.k && VariantOf(r.value) == VariantOf(inst)
    decreases |inputs|
  {
    if |inputs| == 0 then Ok(inst)
    else
      match DriveInstance(b, inst, inputs[0])
      case Panic(e) => Panic(e)
      case Ok(next) => RunInstance(b, next, inputs[1..])
  }

  /** Driving an instance with a sequence of inputs is the reference run of
      the rule table of its size: after every drive the function-table,
      hybrid and enum instances are in the configuration the rules give. */
  lemma {:induction false} RunInstanceRefines(b: Built, inst: Instance, inputs: seq<u64>)
    requires WellFormedBuilt(b) && RulesAgree(b) && ValidInstance(b, inst)
    ensures WellFormedUniverse(TableOf(b, inst.k), |View(inst).vec|) && View(inst).id < IDS
    ensures ViewOutcome(RunInstance(b, inst, inputs)) == RefRun(TableOf(b, inst.k), View(inst), inputs)
    decreases |inputs|
  {
    InstanceRulesAgree(b, inst);
    ViewValid(b, inst);
    if |inputs| > 0 {
      match DriveInstance(b, inst, inputs[0])
      case Panic(e) =>
      case Ok(next) =>
        RunInstanceRefines(b, next, inputs[1..]);
    }
  }

  /** Instances of two representations that start in the same configuration
      of the same size stay in the same configuration under the same inputs,
      and panic on the same input. */
  lemma RunInstanceAgree(b: Built, i1: Instance, i2: Instance, inputs: seq<u64>)
    requires WellFormedBuilt(b) && RulesAgree(b) && ValidInstance(b, i1) && ValidInstance(b, i2)
    requires i1.k == i2.k && View(i1) == View(i2)
    ensures ViewOutcome(RunInstance(b, i1, inputs)) == ViewOutcome(RunInstance(b, i2, inputs))
  {
    RunInstanceRefines(b, i1, inputs);
    RunInstanceRefines(b, i2, inputs);
  }

  /** One `single_run!`: the initial population, the workload, and the
      population after the workload (or the panic that aborted it). */
  datatype Repetition = Repetition(initial: seq<Instance>, jobs: seq<Job>, final: Outcome<seq<Instance>>)

  /** The workload of a repetition: `runs` data draws from `dpos` and `runs`
      index draws from `ipos`, zipped; drive `i` pairs index draw `ipos + i`
      with data draw `dpos + i`. */
  function Workload(runs: nat, s: Stream, dpos: nat, ipos: nat): (jobs: seq<Job>)
    ensures |jobs| == runs
    ensures forall i :: 0 <= i < runs ==> jobs[i] == Job(s(ipos + i), s(dpos + i))
  {
    Zip(DrawVector(runs, s, ipos).value, DrawVector(runs, s, dpos).value)
  }

  /** Stream position after the `runs` data draws of a repetition starting
      at `pos`, where its population starts. Named, like `After`, so that the
      position reads the same in every lemma that mentions it. */
  function DataEnd(runs: nat, pos: nat): nat
  {
    pos + runs
  }

  /** Stream position of the first index draw of a repetition starting at
      `pos`: after the data draws and the population's draws. */
  function IndexStart(runs: nat, count: nat, pos: nat, initial: seq<Instance>): nat
  {
    pos + runs + count + SlotCount(initial)
  }

  /** `single_run!` with `runs` drives over `count` instances: `runs` data
      draws, the population, then `runs` index draws, zipped and driven in
      order. The repetition consumes its data, population and index
      draws and nothing else. */
  function SingleRun(b: Built, v: Variant, runs: nat, count: nat, s: Stream, pos: nat): (r: Drawn<Repetition>)
    requires WellFormedBuilt(b)
    ensures |r.value.initial| == count && |r.value.jobs| == runs
    ensures r.next == IndexStart(runs, count, pos, r.value.initial) + runs
  {
    RunWorkload(b, v, runs, s, pos, Populate(b, v, count, s, DataEnd(runs, pos)))
  }

  /** The rest of `single_run!` once the population `pop` is drawn: the index
      draws after it, paired with the data draws from `pos`, and the drive
      loop. */
  function RunWorkload(b: Built, v: Variant, runs: nat, s: Stream, pos: nat, pop: Drawn<seq<Instance>>): (r: Drawn<Repetition>)
    requires WellFormedBuilt(b) && ValidPopulation(b, v, pop.value)
    ensures r.value.initial == pop.value && r.next == pop.next + runs
    ensures r.value.jobs == Workload(runs, s, pos, pop.next)
  {
    var jobs := Workload(runs, s, pos, pop.next);
    Drawn(Repetition(pop.value, jobs, DriveAll(b, v, pop.value, jobs)), pop.next + runs)
  }

  /** A repetition's population is fresh and of its representation. */
  lemma SingleRunPopulation(b: Built, v: Variant, runs: nat, count: nat, s: Stream, pos: nat)
    requires WellFormedBuilt(b)
    ensures FreshPopulation(b, v, SingleRun(b, v, runs, count, s, pos).value.initial)
  {
  }

  /** The `i`-th drive of a repetition pairs the `i`-th index draw with the
      `i`-th data draw. */
  lemma SingleRunPairs(b: Built, v: Variant, runs: nat, count: nat, s: Stream, pos: nat)
    requires WellFormedBuilt(b)
    ensures var rep := SingleRun(b, v, runs, count, s, pos).value;
      rep.jobs == Workload(runs, s, pos, IndexStart(runs, count, pos, rep.initial))
  {
    var pop := Populate(b, v, count, s, DataEnd(runs, pos));
    assert IndexStart(runs, count, pos, pop.value) == pop.next;
  }

  /** The drives keep the population's size and representation, and when
      every index draw lies below `count` (the promise of
      `gen_range(0, FSM_COUNT)`) only a division by zero can abort the
      repetition. */
  lemma SingleRunInBounds(b: Built, v: Variant, runs: nat, count: nat, s: Stream, pos: nat)
    requires WellFormedBuilt(b)
    ensures var rep := SingleRun(b, v, runs, count, s, pos).value;
      && (rep.final.Ok? ==> |rep.final.value| == count && ValidPopulation(b, v, rep.final.value))
      && ((forall i :: 0 <= i < runs ==> rep.jobs[i].idx < count) ==> rep.final.Panic? ==> rep.final.fault == DivideByZero)
  {
    var rep := SingleRun(b, v, runs, count, s, pos).value;
    SingleRunPopulation(b, v, runs, count, s, pos);
    DriveAllKeeps(b, v, rep.initial, rep.jobs);
    if forall i :: 0 <= i < runs ==> rep.jobs[i].idx < count {
      DriveAllInBounds(b, v, rep.initial, rep.jobs);
    }
  }

  /** What a repetition shows independently of the representation: the size
      indices and configurations of the population before and after, and
      the workload. */
  datatype Observed = Observed(ks: seq<nat>, initial: seq<Config>, jobs: seq<Job>, final: Outcome<seq<Config>>)

  function Observe(rep: Repetition): Observed
  {
    Observed(Ks(rep.initial), Views(rep.initial), rep.jobs, ViewsOutcome(rep.final))
  }

  /** A repetition drives its initial population through its workload by the
      reference rules. */
  lemma SingleRunRefines(b: Built, v: Variant, runs: nat, count: nat, s: Stream, pos: nat)
    requires WellFormedBuilt(b) && RulesAgree(b)
    ensures var rep := SingleRun(b, v, runs, count, s, pos).value;
      && WellFormedTables(Tables(b)) && ValidConfigs(Ks(rep.initial), Views(rep.initial))
      && ViewsOutcome(rep.final) == RefDriveAll(Tables(b), Ks(rep.initial), Views(rep.initial), rep.jobs)
  {
    var rep := SingleRun(b, v, runs, count, s, pos).value;
    DriveAllRefines(b, v, rep.initial, rep.jobs);
  }

  /** The same stream position gives every representation the same
      population, the same workload and the same outcome, and leaves the
      stream at the same position. */
  lemma SingleRunAgree(b: Built, v1: Variant, v2: Variant, runs: nat, count: nat, s: Stream, pos: nat)
    requires WellFormedBuilt(b) && RulesAgree(b)
    ensures Observe(SingleRun(b, v1, runs, count, s, pos).value) == Observe(SingleRun(b, v2, runs, count, s, pos).value)
    ensures SingleRun(b, v1, runs, count, s, pos).next == SingleRun(b, v2, runs, count, s, pos).next
  {
    PopulateAgree(b, v1, v2, count, s, DataEnd(runs, pos));
    var p1 := Populate(b, v1, count, s, DataEnd(runs, pos));
    var p2 := Populate(b, v2, count, s, DataEnd(runs, pos));
    var jobs := Workload(runs, s, pos, p1.next);
    DriveAllAgree(b, v1, v2, p1.value, p2.value, jobs);
  }

  /** One repetition as the benchmark loops see it, from stream position
      `p`: the repetition, or the panic that aborts the program. */
  function Attempt(b: Built, v: Variant, runs: nat, count: nat, s: Stream): nat -> Drawn<Outcome<Repetition>>
    requires WellFormedBuilt(b)
  {
    (p: nat) =>
      var rep := SingleRun(b, v, runs, count, s, p);
      Drawn(if rep.value.final.Panic? then Panic(rep.value.final.fault) else Ok(rep.value), rep.next)
  }

  /** A loop `for _ in 0..n { step(rng) }`: each step continues the stream
      where the previous one stopped, and the first panic aborts. */
  function Repeat<R>(step: nat -> Drawn<Outcome<R>>, n: nat, pos: nat): (r: Drawn<Outcome<seq<R>>>)
    ensures r.value.Ok? ==> |r.value.value| == n
    decreases n
  {
    if n == 0 then Drawn(Ok([]), pos)
    else
      var first := step(pos);
      match first.value
      case Panic(e) => Drawn(Panic(e), first.next)
      case Ok(x) =>
        var rest := Repeat(step, n - 1, first.next);
        match rest.value
        case Panic(e) => Drawn(Panic(e), rest.next)
        case Ok(xs) => Drawn(Ok([x] + xs), rest.next)
  }

  /** Whatever every successful step guarantees of its result holds of every
      result a successful loop collects. */
  lemma {:induction false} RepeatHolds<R>(step: nat -> Drawn<Outcome<R>>, P: R -> bool, n: nat, pos: nat)
    requires forall p: nat :: step(p).value.Ok? ==> P(step(p).value.value)
    ensures Repeat(step, n, pos).value.Ok? ==> forall i :: 0 <= i < n ==> P(Repeat(step, n, pos).value.value[i])
    decreases n
  {
    if n > 0 && step(pos).value.Ok? {
      var first := step(pos);
      RepeatHolds(step, P, n - 1, first.next);
      var rest := Repeat(step, n - 1, first.next);
      if rest.value.Ok? {
        var all := [first.value.value] + rest.value.value;
        assert Repeat(step, n, pos).value.value == all;
        assert forall i :: 1 <= i < n ==> all[i] == rest.value.value[i - 1];
      }
    }
  }

  /** A loop of `m + n` iterations is a loop of `m` followed by a loop of
      `n` from where it stopped: the first panic of either aborts, and
      otherwise the results are the first loop's followed by the second's. */
  lemma {:induction false} RepeatSplit<R>(step: nat -> Drawn<Outcome<R>>, m: nat, n: nat, pos: nat)
    ensures var first := Repeat(step, m, pos);
      var rest := Repeat(step, n, first.next);
      var whole := Repeat(step, m + n, pos);
      && (first.value.Panic? ==> whole == first)
      && (first.value.Ok? && rest.value.Panic? ==> whole == rest)
      && (first.value.Ok? && rest.value.Ok? ==> whole == Drawn(Ok(first.value.value + rest.value.value), rest.next))
    decreases m
  {
    var first := Repeat(step, m, pos);
    var rest := Repeat(step, n, first.next);
    if m == 0 {
      assert first == Drawn(Ok([]), pos);
      if rest.value.Ok? {
        assert first.value.value + rest.value.value == rest.value.value;
      }
    } else {
      var s0 := step(pos);
      if s0.value.Ok? {
        RepeatSplit(step, m - 1, n, s0.next);
        assert m + n - 1 == (m - 1) + n;
        var first' := Repeat(step, m - 1, s0.next);
        if first'.value.Ok? && rest.value.Ok? {
          assert [s0.value.value] + (first'.value.value + rest.value.value)
              == ([s0.value.value] + first'.value.value) + rest.value.value;
        }
      }
    }
  }

  /** `obs` of a result, or the panic. */
  function MapOk<R, O>(obs: R -> O, o: Outcome<R>): Outcome<O>
  {
    match o
    case Ok(x) => Ok(obs(x))
    case Panic(e) => Panic(e)
  }

  /** `obs` of every collected result, or the panic. */
  function MapAll<R, O>(obs: R -> O, o: Outcome<seq<R>>): (r: Outcome<seq<O>>)
    ensures r.Ok? <==> o.Ok?
    ensures r.Ok? ==> |r.value| == |o.value| && forall i :: 0 <= i < |o.value| ==> r.value[i] == obs(o.value[i])
  {
    match o
    case Ok(xs) => Ok(seq(|xs|, i requires 0 <= i < |xs| => obs(xs[i])))
    case Panic(e) => Panic(e)
  }

  /** Two loops whose steps, from any position, consume the same draws and
      look the same under `obs` (panicking alike) look the same under `obs`
      step by step and stop at the same position. */
  lemma {:induction false} RepeatAgree<R1, R2, O>(step1: nat -> Drawn<Outcome<R1>>, step2: nat -> Drawn<Outcome<R2>>,
                                                  obs1: R1 -> O, obs2: R2 -> O, n: nat, pos: nat)
    requires forall p: nat :: step1(p).next == step2(p).next && MapOk(obs1, step1(p).value) == MapOk(obs2, step2(p).value)
    ensures MapAll(obs1, Repeat(step1, n, pos).value) == MapAll(obs2, Repeat(step2, n, pos).value)
    ensures Repeat(step1, n, pos).next == Repeat(step2, n, pos).next
    decreases n
  {
    if n > 0 {
      var f1 := step1(pos);
      var f2 := step2(pos);
      assert MapOk(obs1, f1.value) == MapOk(obs2, f2.value);
      if f1.value.Ok? {
        RepeatAgree(step1, step2, obs1, obs2, n - 1, f1.next);
        var r1 := Repeat(step1, n - 1, f1.next).value;
        var r2 := Repeat(step2, n - 1, f1.next).value;
        if r1.Ok? {
          var all1 := [f1.value.value] + r1.value;
          var all2 := [f2.value.value] + r2.value;
          assert Repeat(step1, n, pos).value.value == all1;
          assert Repeat(step2, n, pos).value.value == all2;
          assert r2.Ok? && |all1| == n == |all2|;
          assert forall i :: 1 <= i < n ==> all1[i] == r1.value[i - 1] && all2[i] == r2.value[i - 1];
          assert forall i :: 0 <= i < n ==> obs1(all1[i]) == obs2(all2[i]);
          assert MapAll(obs1, Ok(all1)).value == MapAll(obs2, Ok(all2)).value;
        }
      }
    }
  }

  /** Every representation's repetition from the same position looks the
      same and consumes the same draws. */
  lemma AttemptsAgree(b: Built, v1: Variant, v2: Variant, runs: nat, count: nat, s: Stream)
    requires WellFormedBuilt(b) && RulesAgree(b)
    ensures forall p: nat ::
      && Attempt(b, v1, runs, count, s)(p).next == Attempt(b, v2, runs, count, s)(p).next
      && MapOk(Observe, Attempt(b, v1, runs, count, s)(p).value) == MapOk(Observe, Attempt(b, v2, runs, count, s)(p).value)
  {
    forall p: nat
      ensures Attempt(b, v1, runs, count, s)(p).next == Attempt(b, v2, runs, count, s)(p).next
      ensures MapOk(Observe, Attempt(b, v1, runs, count, s)(p).value) == MapOk(Observe, Attempt(b, v2, runs, count, s)(p).value)
    {
      SingleRunAgree(b, v1, v2, runs, count, s, p);
    }
  }

  /** `bench_run!` with the given counts: reseed (start at position 0), run
      `warmups` repetitions and discard them, then record `recorded` ones. */
  function BenchRunWith(b: Built, v: Variant, warmups: nat, recorded: nat, runs: nat, count: nat, s: Stream): (r: Outcome<seq<Repetition>>)
    requires WellFormedBuilt(b)
    ensures r.Ok? ==> |r.value| == recorded
  {
    var step := Attempt(b, v, runs, count, s);
    var warm := Repeat(step, warmups, 0);
    if warm.value.Panic? then Panic(warm.value.fault)
    else Repeat(step, recorded, warm.next).value
  }

  /** The benchmark is one loop of `warmups + recorded` repetitions from the
      reseeded position 0 whose first `warmups` results are discarded: it
      panics exactly when that loop does, with the same fault, and otherwise
      records the repetitions after the warm-ups. */
  lemma BenchRunWithWarmups(b: Built, v: Variant, warmups: nat, recorded: nat, runs: nat, count: nat, s: Stream)
    requires WellFormedBuilt(b)
    ensures var all := Repeat(Attempt(b, v, runs, count, s), warmups + recorded, 0).value;
      BenchRunWith(b, v, warmups, recorded, runs, count, s) == if all.Ok? then Ok(all.value[warmups..]) else all
  {
    var step := Attempt(b, v, runs, count, s);
    RepeatSplit(step, warmups, recorded, 0);
    var warm := Repeat(step, warmups, 0);
    var all := Repeat(step, warmups + recorded, 0).value;
    if warm.value.Ok? {
      var rest := Repeat(step, recorded, warm.next);
      if rest.value.Ok? {
        assert all.value[warmups..] == rest.value.value;
      }
    }
  }

  /** Every recorded repetition drove `runs` times without a panic. */
  lemma BenchRunWithShape(b: Built, v: Variant, warmups: nat, recorded: nat, runs: nat, count: nat, s: Stream)
    requires WellFormedBuilt(b)
    ensures var r := BenchRunWith(b, v, warmups, recorded, runs, count, s);
      r.Ok? ==> forall i :: 0 <= i < recorded ==> r.value[i].final.Ok? && |r.value[i].jobs| == runs
  {
    var step := Attempt(b, v, runs, count, s);
    var P := (rep: Repetition) => rep.final.Ok? && |rep.jobs| == runs;
    forall p: nat
      ensures step(p).value.Ok? ==> P(step(p).value.value)
    {
      var rep := SingleRun(b, v, runs, count, s, p);
      assert step(p).value == if rep.value.final.Panic? then Panic(rep.value.final.fault) else Ok(rep.value);
    }
    var warm := Repeat(step, warmups, 0);
    RepeatHolds(step, P, recorded, warm.next);
    if !warm.value.Panic? {
      assert BenchRunWith(b, v, warmups, recorded, runs, count, s) == Repeat(step, recorded, warm.next).value;
    }
  }

  /** Every representation's benchmark records the same repetitions. */
  lemma BenchRunWithAgree(b: Built, v1: Variant, v2: Variant, warmups: nat, recorded: nat, runs: nat, count: nat, s: Stream)
    requires WellFormedBuilt(b) && RulesAgree(b)
    ensures MapAll(Observe, BenchRunWith(b, v1, warmups, recorded, runs, count, s)) ==
      MapAll(Observe, BenchRunWith(b, v2, warmups, recorded, runs, count, s))
  {
    var step1 := Attempt(b, v1, runs, count, s);
    var step2 := Attempt(b, v2, runs, count, s);
    AttemptsAgree(b, v1, v2, runs, count, s);
    RepeatAgree(step1, step2, Observe, Observe, warmups, 0);
    var w1 := Repeat(step1, warmups, 0);
    assert w1.value.Panic? == Repeat(step2, warmups, 0).value.Panic?;
    RepeatAgree(step1, step2, Observe, Observe, recorded, w1.next);
  }

  /** `bench_run!` as `main` runs it. */
  function BenchRun(b: Built, v: Variant, s: Stream): (r: Outcome<seq<Repetition>>)
    requires WellFormedBuilt(b)
    ensures r.Ok? ==> |r.value| == BENCH_RUNS
  {
    BenchRunWith(b, v, BENCH_WARMUPS, BENCH_RUNS, HEAP_RUNS_PER_BENCH, FSM_COUNT, s)
  }

  /** Exactly `BENCH_RUNS` repetitions are recorded, each driving
      `HEAP_RUNS_PER_BENCH` times. */
  lemma BenchRunShape(b: Built, v: Variant, s: Stream)
    requires WellFormedBuilt(b)
    ensures BenchRun(b, v, s).Ok? ==> forall i :: 0 <= i < BENCH_RUNS ==>
      BenchRun(b, v, s).value[i].final.Ok? && |BenchRun(b, v, s).value[i].jobs| == HEAP_RUNS_PER_BENCH
  {
    BenchRunWithShape(b, v, BENCH_WARMUPS, BENCH_RUNS, HEAP_RUNS_PER_BENCH, FSM_COUNT, s);
  }

  /** `main` with the given counts on built modules `b`: the function-table,
      hybrid and enum benchmarks in turn, each reseeding the stream `s`; a
      panic aborts the program. */
  function MainWith(b: Built, s: Stream, warmups: nat, recorded: nat, runs: nat, count: nat): (r: Outcome<seq<seq<Repetition>>>)
    requires WellFormedBuilt(b)
    ensures r.Ok? ==> |r.value| == 3 && |r.value[0]| == |r.value[1]| == |r.value[2]| == recorded
  {
    match BenchRunWith(b, Function, warmups, recorded, runs, count, s)
    case Panic(e) => Panic(e)
    case Ok(f) =>
      match BenchRunWith(b, Hybrid, warmups, recorded, runs, count, s)
      case Panic(e) => Panic(e)
      case Ok(h) =>
        match BenchRunWith(b, Enum, warmups, recorded, runs, count, s)
        case Panic(e) => Panic(e)
        case Ok(n) => Ok([f, h, n])
  }

  /** When the modules' rules agree, the three benchmarks build the same
      populations and workloads and drive them to the same configurations,
      repetition by repetition: `main` either panics in the first benchmark
      or records identical repetitions three times. */
  lemma MainWithAgrees(b: Built, s: Stream, warmups: nat, recorded: nat, runs: nat, count: nat)
    requires WellFormedBuilt(b) && RulesAgree(b)
    ensures var r := MainWith(b, s, warmups, recorded, runs, count);
      && (r.Panic? <==> BenchRunWith(b, Function, warmups, recorded, runs, count, s).Panic?)
      && (r.Ok? ==> MapAll(Observe, Ok(r.value[0])) == MapAll(Observe, Ok(r.value[1])) == MapAll(Observe, Ok(r.value[2])))
  {
    BenchRunWithAgree(b, Function, Hybrid, warmups, recorded, runs, count, s);
    BenchRunWithAgree(b, Function, Enum, warmups, recorded, runs, count, s);
  }

  /** `main`, given the stream the build script's
      `seed_from_u64(RNG_SEED)` yields and the stream the benchmark's
      `seed_from_u64(SEED)` yields. */
  function MainRun(sBuild: Stream, sBench: Stream): (r: Outcome<seq<seq<Repetition>>>)
    ensures r.Ok? ==> |r.value| == 3 && |r.value[0]| == |r.value[1]| == |r.value[2]| == BENCH_RUNS
  {
    BuildAgrees(sBuild);
    MainWith(BuildAll(sBuild), sBench, BENCH_WARMUPS, BENCH_RUNS, HEAP_RUNS_PER_BENCH, FSM_COUNT)
  }

  /** Whatever the two seeded streams yield, the generated modules' rules
      agree, so `main` records identical repetitions for all three
      representations unless it panics in the first benchmark. */
  lemma MainAgrees(sBuild: Stream, sBench: Stream)
    ensures WellFormedBuilt(BuildAll(sBuild)) && RulesAgree(BuildAll(sBuild))
    ensures var r := MainRun(sBuild, sBench);
      r.Ok? ==> MapAll(Observe, Ok(r.value[0])) == MapAll(Observe, Ok(r.value[1])) == MapAll(Observe, Ok(r.value[2]))
  {
    BuildAgrees(sBuild);
    MainWithAgrees(BuildAll(sBuild), sBench, BENCH_WARMUPS, BENCH_RUNS, HEAP_RUNS_PER_BENCH, FSM_COUNT);
  }
}

=== FILE: rules.dfy ===
/** Transition rules of the generated state machines, independent of how a
    representation dispatches to them, and the reference step they define. */
module Rules {
  import opened Outcomes
  import opened Wrapping

  /** Number of live states; ids 0..STATES-1 have a generated rule. */
  const STATES: nat := 255
  /** The absorbing trap state. */
  const TRAP: nat := 255
  /** Number of state ids, and the selector's modulus. */
  const IDS: nat := 256

  /** One slot's update: `state[i] = state[i] op (val + data)` with wrapping
      arithmetic, or no change. */
  datatype SlotOp = Add(val: u64) | Sub(val: u64) | Mul(val: u64) | Div(val: u64) | Keep

  /** The slot op for a drawn constant and a drawn op code: codes 0..3 are
      add, sub, mul and div, every other code falls into the `_ => ()` arm. */
  function DecodeOp(val: u64, code: u64): (op: SlotOp)
    ensures op.Keep? <==> code > 3
    ensures !op.Keep? ==> op.val == val
    ensures code == 0 <==> op.Add?
    ensures code == 1 <==> op.Sub?
    ensures code == 2 <==> op.Mul?
    ensures code == 3 <==> op.Div?
  {
    if code == 0 then Add(val)
    else if code == 1 then Sub(val)
    else if code == 2 then Mul(val)
    else if code == 3 then Div(val)
    else Keep
  }

  /** The new value of one slot holding `x` when the machine is driven with
      `data`. Only a divide whose operand `val + data` wraps to zero panics. */
  function ApplyOp(op: SlotOp, x: u64, data: u64): (r: Outcome<u64>)
    ensures r.Panic? <==> op.Div? && (op.val + data == 0 || op.val + data == MODULUS)
    ensures r.Panic? ==> r.fault == DivideByZero
    ensures op.Keep? ==> r == Ok(x)
    ensures op.Add? ==> r == Ok((x + op.val + data) % MODULUS)
    ensures op.Sub? ==> r == Ok((x - op.val - data) % MODULUS)
    ensures op.Mul? ==> r == Ok((x * ((op.val + data) % MODULUS)) % MODULUS)
    ensures op.Div? && r.Ok? ==> r.value == x / ((op.val + data) % MODULUS)
  {
    match op
    case Add(val) =>
      ModShift(x + val + data, -((val + data) / MODULUS));
      Ok(WrappingAdd(x, WrappingAdd(val, data)))
    case Sub(val) =>
      ModShift(x - val - data, (val + data) / MODULUS);
      Ok(WrappingSub(x, WrappingAdd(val, data)))
    case Mul(val) => Ok(WrappingMul(x, WrappingAdd(val, data)))
    case Div(val) => WrappingDiv(x, WrappingAdd(val, data))
    case Keep => Ok(x)
  }

  /** Applies `ops[i]` to `v[i]` for every slot, in index order; the first
      panicking slot aborts the drive. */
  function ApplyOps(ops: seq<SlotOp>, v: seq<u64>, data: u64): (r: Outcome<seq<u64>>)
    requires |ops| == |v|
    ensures r.Ok? <==> forall i :: 0 <= i < |v| ==> ApplyOp(ops[i], v[i], data).Ok?
    ensures r.Panic? ==> r.fault == DivideByZero
    ensures r.Ok? ==> |r.value| == |v|
    ensures r.Ok? ==> forall i :: 0 <= i < |v| ==> r.value[i] == ApplyOp(ops[i], v[i], data).value
  {
    if |ops| == 0 then Ok([])
    else
      match ApplyOp(ops[0], v[0], data)
      case Panic(f) => Panic(f)
      case Ok(x) =>
        match ApplyOps(ops[1..], v[1..], data)
        case Panic(f) => Panic(f)
        case Ok(rest) =>
          assert forall i :: 1 <= i < |v| ==> ApplyOp(ops[i], v[i], data) == ApplyOp(ops[1..][i - 1], v[1..][i - 1], data);
          Ok([x] + rest)
  }

  /** The next state id after a live rule: the wrapping sum of the updated
      vector, modulo 256. */
  function Selector(v: seq<u64>): (id: nat)
    ensures id < IDS
  {
    WrappingSum(v) % IDS
  }

  /** The selector equals the unbounded sum of the vector modulo 256, because
      256 divides 2^64; and it survives the `as u8` cast of the enum variant
      and indexes the 256-entry procedure table. */
  lemma SelectorIsSumMod256(v: seq<u64>)
    ensures Selector(v) == Sum(v) % 256
    ensures AsU8(Selector(v)) == Selector(v)
    ensures Selector(v) < IDS
  {
    WrappingSumIsSumMod(v);
    Mod256OfModModulus(Sum(v));
  }

  /** The divide slot panics exactly when the drive input is `2^64 - val`, for
      every constant the generator can draw. */
  lemma DivPanicsIff(val: u64, x: u64, data: u64)
    requires 1 <= val
    ensures ApplyOp(Div(val), x, data).Panic? <==> data == MODULUS - val
  {
  }

  /** What a state does when driven. */
  datatype Rule = Live(ops: seq<SlotOp>) | Trap

  /** An abstract machine configuration: current state id and state vector. */
  datatype Config = Config(id: nat, vec: seq<u64>)

  /** A rule table for one state-vector size: 255 live rules of `size` slot
      ops each, and the trap at id 255. */
  ghost predicate WellFormedUniverse(u: seq<Rule>, size: nat)
  {
    && |u| == IDS
    && u[TRAP] == Trap
    && forall n :: 0 <= n < STATES ==> u[n].Live? && |u[n].ops| == size
  }

  /** A configuration a rule table of `size` can drive. */
  predicate ValidConfig(c: Config, size: nat)
  {
    c.id < IDS && |c.vec| == size
  }

  /** The rule-table step: a live rule updates the vector and selects the
      next id; the trap changes nothing. */
  function RefStep(u: seq<Rule>, c: Config, data: u64): (r: Outcome<Config>)
    requires |u| == IDS && c.id < IDS
    requires u[c.id].Live? ==> |u[c.id].ops| == |c.vec|
    ensures u[c.id].Trap? ==> r == Ok(c)
    ensures r.Panic? ==> u[c.id].Live? && r.fault == DivideByZero
    ensures r.Ok? ==> r.value.id < IDS && |r.value.vec| == |c.vec|
    ensures r.Ok? && u[c.id].Live? ==> r.value.id == Sum(r.value.vec) % 256
    ensures u[c.id].Live? ==>
      (r.Ok? <==> forall i :: 0 <= i < |c.vec| ==> ApplyOp(u[c.id].ops[i], c.vec[i], data).Ok?)
    ensures r.Ok? && u[c.id].Live? ==>
      forall i :: 0 <= i < |c.vec| ==> r.value.vec[i] == ApplyOp(u[c.id].ops[i], c.vec[i], data).value
  {
    match u[c.id]
    case Trap => Ok(c)
    case Live(ops) =>
      match ApplyOps(ops, c.vec, data)
      case Panic(f) => Panic(f)
      case Ok(v) =>
        SelectorIsSumMod256(v);
        Ok(Config(Selector(v), v))
  }

  /** Drives a configuration with every input in order; the first panic
      aborts the run. */
  function RefRun(u: seq<Rule>, c: Config, inputs: seq<u64>): (r: Outcome<Config>)
    requires WellFormedUniverse(u, |c.vec|) && c.id < IDS
    ensures r.Ok? ==> ValidConfig(r.value, |c.vec|)
    decreases |inputs|
  {
    if |inputs| == 0 then Ok(c)
    else
      match RefStep(u, c, inputs[0])
      case Panic(f) => Panic(f)
      case Ok(c') => RefRun(u, c', inputs[1..])
  }

  /** Once a machine is in the trap it stays there with its vector unchanged,
      whatever it is driven with. */
  lemma {:induction false} TrapAbsorbs(u: seq<Rule>, v: seq<u64>, inputs: seq<u64>)
    requires WellFormedUniverse(u, |v|)
    ensures RefRun(u, Config(TRAP, v), inputs) == Ok(Config(TRAP, v))
    decreases |inputs|
  {
    if |inputs| > 0 {
      TrapAbsorbs(u, v, inputs[1..]);
    }
  }

  /** A run over one input is one step. */
  lemma RefRunOne(u: seq<Rule>, c: Config, data: u64)
    requires WellFormedUniverse(u, |c.vec|) && c.id < IDS
    ensures RefRun(u, c, [data]) == RefStep(u, c, data)
  {
    match RefStep(u, c, data)
    case Panic(f) =>
    case Ok(c') => assert [data][1..] == [];
  }

  /** A run over `xs + ys` is the run over `xs` followed by the run over `ys`
      from where it stops; a panic during `xs` is the panic of the whole
      run. */
  lemma {:induction false} RefRunSplit(u: seq<Rule>, c: Config, xs: seq<u64>, ys: seq<u64>)
    requires WellFormedUniverse(u, |c.vec|) && c.id < IDS
    ensures RefRun(u, c, xs).Panic? ==> RefRun(u, c, xs + ys) == RefRun(u, c, xs)
    ensures RefRun(u, c, xs).Ok? ==> RefRun(u, c, xs + ys) == RefRun(u, RefRun(u, c, xs).value, ys)
    decreases |xs|
  {
    if |xs| == 0 {
      assert xs + ys == ys;
    } else {
      assert (xs + ys)[0] == xs[0];
      assert (xs + ys)[1..] == xs[1..] + ys;
      match RefStep(u, c, xs[0])
      case Panic(f) =>
      case Ok(c') => RefRunSplit(u, c', xs[1..], ys);
    }
  }
}

=== FILE: wrapping.dfy ===
/** Panicking outcomes of the release-mode Rust operations the state machines use. */
module Outcomes {

  /** The two ways a drive can abort the process: `wrapping_div` by zero and
      an out-of-range `Vec` index. */
  datatype Fault = DivideByZero | IndexOutOfBounds

  /** Either the operation's value or the panic that aborted it. */
  datatype Outcome<+T> = Ok(value: T) | Panic(fault: Fault)
}

/** Unsigned 64-bit arithmetic with the wrap-around of Rust's `wrapping_*`
    methods and of a release-mode `iter().sum()`. */
module Wrapping {
  import opened Outcomes

  const MODULUS: int := 0x1_0000_0000_0000_0000
  const U64_MAX: int := MODULUS - 1

  type u64 = x: int | 0 <= x < 0x1_0000_0000_0000_0000
  type u8 = x: int | 0 <= x < 256

  /** `u64::wrapping_add` */
  function WrappingAdd(a: u64, b: u64): (r: u64)
    ensures a + b < MODULUS ==> r == a + b
    ensures a + b >= MODULUS ==> r == a + b - MODULUS
  {
    (a + b) % MODULUS
  }

  /** `u64::wrapping_sub` */
  function WrappingSub(a: u64, b: u64): (r: u64)
    ensures a >= b ==> r == a - b
    ensures a < b ==> r == a - b + MODULUS
  {
    (a - b) % MODULUS
  }

  /** `u64::wrapping_mul` */
  function WrappingMul(a: u64, b: u64): (r: u64)
    ensures a * b < MODULUS ==> r == a * b
    ensures a == 0 || b == 0 ==> r == 0
  {
    var p := a * b;
    if p < MODULUS then ModUnique(p, 0, p, MODULUS); p % MODULUS
    else p % MODULUS
  }

  /** `u64::wrapping_div`: unsigned division never overflows, but a zero
      divisor panics. */
  function WrappingDiv(a: u64, b: u64): (r: Outcome<u64>)
    ensures r.Panic? <==> b == 0
    ensures r.Panic? ==> r.fault == DivideByZero
    ensures r.Ok? ==> r.value * b <= a < r.value * b + b
  {
    if b == 0 then Panic(DivideByZero) else Ok(a / b)
  }

  /** `x as u8`: keeps the low eight bits. */
  function AsU8(x: u64): (r: u8)
    ensures x < 256 ==> r == x
  {
    x % 256
  }

  /** The mathematical sum of a vector, folded from the left. */
  function Sum(v: seq<u64>): (r: int)
    ensures r >= 0
  {
    if |v| == 0 then 0 else Sum(v[..|v| - 1]) + v[|v| - 1]
  }

  /** `v.iter().sum::<u64>()` in a release build: a left fold from 0 with
      wrapping addition. */
  function WrappingSum(v: seq<u64>): u64
  {
    if |v| == 0 then 0 else WrappingAdd(WrappingSum(v[..|v| - 1]), v[|v| - 1])
  }

  /** A remainder is determined by any decomposition `z == q * m + r` with
      `0 <= r < m`. */
  lemma ModUnique(z: int, q: int, r: int, m: int)
    requires m > 0 && 0 <= r < m && z == q * m + r
    ensures z % m == r
  {
    var q' := z / m;
    var r' := z % m;
    assert z == q' * m + r';
    assert (q - q') * m == r' - r;
    if q > q' {
      MulAtLeast(q - q', m);
    } else if q < q' {
      MulAtLeast(q' - q, m);
    }
  }

  /** Adding a multiple of 2^64 does not change a residue modulo 2^64. */
  lemma ModShift(a: int, q: int)
    ensures (a + q * MODULUS) % MODULUS == a % MODULUS
  {
    ModUnique(a + q * MODULUS, a / MODULUS + q, a % MODULUS, MODULUS);
  }

  /** A positive multiple of `m` is at least `m`. */
  lemma MulAtLeast(d: int, m: int)
    requires d >= 1 && m > 0
    ensures d * m >= m
  {
    assert d * m == (d - 1) * m + m;
  }

  /** Wrapping the running total at every step wraps the total once. */
  lemma {:induction false} WrappingSumIsSumMod(v: seq<u64>)
    ensures WrappingSum(v) == Sum(v) % MODULUS
  {
    if |v| > 0 {
      var init := v[..|v| - 1];
      var last := v[|v| - 1];
      WrappingSumIsSumMod(init);
      var t := Sum(init);
      ModUnique(t, t / MODULUS, t % MODULUS, MODULUS);
      var w := t % MODULUS + last;
      // Sum(v) = (t / MODULUS) * MODULUS + w, so the two agree modulo MODULUS.
      if w < MODULUS {
        ModUnique(Sum(v), t / MODULUS, w, MODULUS);
      } else {
        ModUnique(Sum(v), t / MODULUS + 1, w - MODULUS, MODULUS);
      }
    }
  }

  /** Because 256 divides 2^64, reducing modulo 2^64 first does not change the
      residue modulo 256. */
  lemma Mod256OfModModulus(x: int)
    ensures (x % MODULUS) % 256 == x % 256
  {
    var q := x / MODULUS;
    var r := x % MODULUS;
    assert x == q * MODULUS + r;
    var k := 0x100_0000_0000_0000;
    assert MODULUS == k * 256;
    assert x == (q * k + r / 256) * 256 + r % 256;
    ModUnique(x, q * k + r / 256, r % 256, 256);
  }
}
